=== FILE: README.md ===
# FS25 vehicle sales: listing resolution and sale notifications

A Dafny model of the two halves of the Farming Simulator 25 vehicle-sales monitor.

- **The page generator** (`Sales.py`). For each `<item>` of the savegame's sale file:
  - it resolves the item's `xmlFilename` reference to a vehicle definition record;
  - the reference is either a `$moddir$<mod>/<file>` entry inside a mod zip or a `data/...` file under the base-game data root;
  - from that record's `storeData` it takes the name, flattened specs, brand, category and image;
  - it rewrites the image path onto the configured roots and converts DDS textures to PNG where needed;
  - an item that does not resolve falls back to placeholder fields and gets no card on the page.
- **The chat bot** (`DiscordIntigration.py`). It reads the vehicle cards back from the page. Every polling cycle:
  - it decides per listing whether to post, using the history file (`last_posted`, `last_chance_posted`);
  - it sends at most one "NEW SALE ITEMS" banner;
  - it sends a "LAST CHANCE SALE ITEM" banner once per listing in its last hour;
  - it sends each posted listing's embed and updates the history.

Modules, in dependency order:

- `Wrappers`: `Option` and `Result`.
- `Strings`: the Python string operations the code relies on. These are `in`, `startswith`, `split`, `replace`, `join`, `strip` (with Python's white-space set) and `int()`.
- `Paths`: ntpath-style `join` and `basename` for the configured roots.
- `Xml`: an element tree with ElementTree's `find` and `findtext`.
- `Images`: the image prefix rewrite, the PNG file name and the normalise-or-convert decision.
- `Resolver`: `parse_vehicle_details` and `extract_vehicle_details_from_xml`.
- `Listings`: the main loop's per-item fallback and the page's card filter.
- `Cards`: the `parse_html` line dispatch and card reading.
- `Notify`: `should_post` and one polling cycle, as a fold over the listings.
- `NotifyProps`: what a cycle guarantees.

Outside effects are parameters:

- The file system is a snapshot of existing paths plus the name list of every zip archive.
- The XML parser and the DDS decoder are functions handed in (`Resolver.World`).
- The clock is one reading `now` per cycle.
- The messages a cycle sends are returned as a list of `Banner(text)` / `Detail(name)` events.

Exceptions the code lets escape are explicit outcomes:

- `Resolver.Fault`: a missing `xmlFilename`, a `$moddir$` reference with no `/`, a `data/` file that does not parse, or a record without `storeData`.
- `Cards.CardFault`: a detail line missing its separator, or a non-integer time tag.
- In `Notify`, a `crashed` flag: a missing `time_left`, or a stored entry without `last_chance_posted` reaching the last-chance branch.

Behaviour of the code that is easy to misread:

- **Definition references.** Only `$moddir$` and `data/` definition references are resolved. `Mods/...` and `$data/...` references yield no details (`Resolver.ResolveIgnoresModsAndDollarData`).
- **Conversion cache.** The code checks for the `.png` sibling of the referenced image, not for the converted file in the output directory. So an earlier conversion is redone (`Images.ConversionIgnoresOutputCache`). A `.dds` reference whose `.png` sibling exists is kept as the `.dds` path.
- **`$moddir$` handling.** It removes every `$moddir$`, strips the result and keeps only the second `/`-segment as the zip entry. So `$moddir$A/B/C` looks for entry `B` (`Resolver.ModTargetThreeSegments`). A reference with no `/` raises IndexError, which escapes (`Resolver.ModTargetNoSlash`).
- **Missing `storeData`.** A record without `storeData` raises at the image lookup.
  - In the zip branch that is caught, so the item gets no details.
  - In the `data/` branch it escapes, and so does a parse error.
  - The "Unknown" defaults written for a missing `storeData` are never returned.
- **Empty specs.** A Specs line whose text is `Specs:` reads as `N/A`. One that still has a trailing space after the colon reads as the empty string (`Cards.EmptySpecsReadsNA`, `Cards.TrailingSpecsLabelReadsEmpty`).
- **Card without a time tag.** On first sight it is posted behind the last-chance banner, because `.get('time_left', 0)` reads 0. On the next cycle within the day, `should_post` indexes `time_left` and raises. The model ends that cycle there (`NotifyProps.ShouldPostCases`, `NotifyProps.CrashIsFinal`); what the escaping exception does to the polling loop is under "## Left out".
- **Corrupt history file.** A history file that is not valid JSON is fatal in the code; the model's history is always a well-formed map.

## Model

| member | source | states |
|---|---|---|
| `Notify.ShouldPost` | DiscordIntigration.py:52-70 | A name not in the history is always posted. The rule raises exactly when the name was posted within the last 86400 s and the card has no time value. It suppresses only names posted within that window. |
| `Notify.Step` | DiscordIntigration.py:152-178 | One loop iteration does nothing once the cycle has raised. It only appends messages, at most two, to those already sent. It removes no history entry and changes no record except the one for its own listing's name. |
| `Notify.Run` | DiscordIntigration.py:152-178 | The rest of the loop does nothing once the cycle has raised, only appends messages and removes no history entry. Every name it adds to the history is the name of one of its listings. |
| `Notify.RunCycle` | DiscordIntigration.py:146-178 | A cycle from the loaded history keeps every loaded entry. Every new entry is named after a listing read from the page. |
| `Notify.Tick` | DiscordIntigration.py:146-178 | A tick keeps every loaded history entry. A card that raises while the page is read ends it with nothing sent and the history as loaded. |
| `NotifyProps.FlooredStampAgrees` | DiscordIntigration.py:63 | Against a whole-second reading, the more-than-86400-s test on a fractional stored stamp decides the same as on that stamp's floor. |
| `NotifyProps.ShouldPostCases` | DiscordIntigration.py:52-70 | A name not in the history is posted. So is one whose last post is more than 86400 s old. At exactly 86400 s with more than one hour left it is not posted. With one hour or less and no recorded last-chance post it is posted. With the flag recorded and within the day it is not posted. A missing time value within the day raises. |
| `NotifyProps.ShouldPostByPhase` | DiscordIntigration.py:56-70 | The rule posts exactly in the never-seen, due and last-chance-pending states, and suppresses exactly in the cooling and last-chance-done states. |
| `NotifyProps.StepMessages` | DiscordIntigration.py:154-178 | A step sends nothing when the rule suppresses or the step raises. Otherwise it sends the embed alone, or behind one banner. The last-chance banner goes out exactly when one hour or less is left and the flag is recorded false or absent, and the step then records the flag. The new-items banner goes out exactly when the listing is outside that branch and no such banner went out yet. |
| `NotifyProps.StepQuiet` | DiscordIntigration.py:154-164 | A step changes neither the messages nor the history in three cases: the cycle already raised, the rule does not post, or the last-chance branch meets a stored entry without the flag. |
| `NotifyProps.StepLastChance` | DiscordIntigration.py:157-177 | In the last-chance branch, the step sends the last-chance banner and the embed. It records the clock reading with the flag set, and leaves the new-items state as it was. |
| `NotifyProps.StepRegular` | DiscordIntigration.py:157-177 | Outside the last-chance branch, the step sends the embed, behind the new-items banner only if none went out yet. It stamps the stored or fresh entry with the clock reading and marks the banner as sent. |
| `NotifyProps.StepStreamInv` | DiscordIntigration.py:163-174 | One iteration keeps every banner directly followed by an embed. It keeps exactly one new-items banner sent once the cycle has announced, and none before. |
| `NotifyProps.StepHistoryInv` | DiscordIntigration.py:157-177 | One iteration keeps the history facts relative to the loaded history. No record is removed, unposted names are unchanged, posted names are stamped, and set flags stay set. |
| `NotifyProps.StepLastChanceInv` | DiscordIntigration.py:163-166 | One iteration keeps each last-chance banner unique per name, with its flag set, and never sends one for a name flagged in the loaded history. |
| `NotifyProps.AppendGroup` | DiscordIntigration.py:163-174 | Appending one listing's messages keeps every banner directly followed by an embed. It adds exactly that listing's name to the embeds sent, and counts the banner it carries. |
| `NotifyProps.AppendGroupShape` | DiscordIntigration.py:163-174 | Sending one listing's banner, if any, and then its embed keeps every banner directly followed by an embed. |
| `NotifyProps.GroupDistinct` | DiscordIntigration.py:163-174 | Every posted listing sends something, and different banners give different message streams. |
| `NotifyProps.PostedRecord` | DiscordIntigration.py:157-178 | A posting step changes only the posted name's record. It stamps that record with the cycle's clock reading and never clears its recorded last-chance flag. |
| `NotifyProps.StepInv` | DiscordIntigration.py:152-178 | One loop iteration keeps these facts relative to the loaded history: the stream's shape, the new-items count, the history facts and the last-chance facts. |
| `NotifyProps.RunInv` | DiscordIntigration.py:152-178 | The whole loop keeps those facts. |
| `NotifyProps.CycleGuarantees` | DiscordIntigration.py:146-178 | In one cycle: at most one new-items banner goes out, and every banner is directly followed by an embed. No history entry is removed, and every posted name is stamped with the clock reading. Every unposted name keeps its record, or its absence. A recorded last-chance flag is never cleared. Each last-chance banner sets its name's flag, goes out at most once per name, and never for a name already flagged. |
| `NotifyProps.CrashIsFinal` | DiscordIntigration.py:152-178 | Once an iteration raises, the rest of the listings change nothing. |
| `NotifyProps.StepInvTrace` | DiscordIntigration.py:152-174 | A step keeps the stream well formed, and the only embed it adds is for its own listing. |
| `NotifyProps.DetailsNameListings` | DiscordIntigration.py:152-174 | Every embed sent in a cycle names one of the listings read from the page. |
| `NotifyProps.StepKeepsSettled` | DiscordIntigration.py:157-177 | A step never makes a listing that the history already suppresses postable again. |
| `NotifyProps.StepSettles` | DiscordIntigration.py:164-177 | After a step that did not raise, the history suppresses that same listing at the same clock reading. |
| `NotifyProps.RunSettles` | DiscordIntigration.py:152-178 | After a cycle that did not raise, the history suppresses every listing of the cycle at the same clock reading. |
| `NotifyProps.QuietRun` | DiscordIntigration.py:152-154 | Listings that the history all suppresses leave the messages and the history unchanged. |
| `NotifyProps.RerunIsSilent` | DiscordIntigration.py:146-178 | Rerunning a cycle on the history it left, with the same listings and clock reading, sends nothing and changes nothing. This holds whether or not the first run raised; a run that raised stops again at the same listing before sending anything. |
| `NotifyProps.RunAppend` | DiscordIntigration.py:152-178 | The loop over two runs of listings is the loop over the first run followed by the loop over the second. |
| `NotifyProps.FirstCrash` | DiscordIntigration.py:152-178 | A cycle that raises does so at one listing. The listings before it complete, and the state at the exception is the cycle's result. |
| `NotifyProps.CrashDependsOnHistory` | DiscordIntigration.py:152-178 | Whether an iteration raises depends only on the history, and a raising iteration changes neither the messages nor the history. |
| `NotifyProps.RerunAfterCrash` | DiscordIntigration.py:146-178 | Rerunning a cycle that raised, on the history it left, sends nothing and changes nothing: the listings before the failing one are settled, and the failing one raises again. |
| `NotifyProps.RaisesAgain` | DiscordIntigration.py:152-178 | From any state with the same history as one whose next listing raises, the rest of the loop sends nothing and changes no record. |
| `NotifyProps.ExampleScenario` | DiscordIntigration.py:146-178 | "Tractor X" seen with two hours left gets the new-items banner and a record with the flag false. An hour later, with one hour left, it gets the last-chance banner and the flag true. An hour after that it gets nothing. |
| `NotifyProps.TickOutcome` | DiscordIntigration.py:147-152 | A card that raises while the page is read ends the tick with nothing sent or recorded. Otherwise the tick is the cycle over the cards read. |
| `Cards.ClassifyLine` | DiscordIntigration.py:105-128 | A line that carries a label fills one of the nine keys, or raises under one of them. The Specs branch never raises. |
| `Cards.Fields` | DiscordIntigration.py:105-128 | The detail loop keeps every key that was present before it. |
| `Cards.FieldsFailure` | DiscordIntigration.py:105-128 | The detail loop raises only at a line whose first label's separator is missing, and reports that label's key. |
| `Cards.FieldsRaisesAtFirst` | DiscordIntigration.py:105-128 | The detail loop raises at the first line that misses its separator, with that line's key. |
| `Cards.FieldsRaisesIff` | DiscordIntigration.py:105-128 | The detail loop raises exactly when some line misses its separator. |
| `Cards.SplitLabelLine` | DiscordIntigration.py:107-122 | A line whose first label is one of the eight labels before Specs raises exactly when its separator (`£` for Price, `:` otherwise) is missing. Otherwise it fills that label's key with the stripped text after the first separator. |
| `Cards.ParseCardFirstBadLine` | DiscordIntigration.py:100-128 | A card whose detail line i is the first to miss its separator raises with that line's key. |
| `Cards.ParseCardOutcome` | DiscordIntigration.py:100-139 | Reading a card raises exactly when some detail line misses its separator or the time tag is not an integer. A card whose detail loop raises fails with the loop's key. Otherwise the listing has the stripped title and the detail loop's dictionary. It has the time tag's integer value when the tag is present, and the last `/`-segment of the image source when there is one. |
| `Cards.FirstLabel` | DiscordIntigration.py:107-123 | Finds the first label, in the order tried, that the line contains. All earlier labels are absent, and none is present when it finds nothing. |
| `Cards.ClassifyFollowsFirstLabel` | DiscordIntigration.py:105-128 | A line fills the key of the first label it contains, and contributes nothing exactly when it contains no label. Only the first eight labels can fail on a missing separator. |
| `Cards.ClassifyEarly` | DiscordIntigration.py:107-112 | A line whose first label is Price, Age or Damage is read under that label's key. |
| `Cards.ClassifyMiddle` | DiscordIntigration.py:107-118 | A line whose first label is Wear, Operating Time or Time Left is read under that label's key, even when it also contains a later label. |
| `Cards.ClassifyLate` | DiscordIntigration.py:107-128 | A line whose first label is Brand, Category or Specs is read under that label's key, and a Specs line always yields a value. Brand and Category lines split on `:`. |
| `Cards.SpecsLine` | DiscordIntigration.py:123-128 | A Specs line without the text "Specs: " yields "N/A". Otherwise it yields the stripped text after the first "Specs: ". |
| `Cards.EmptySpecsReadsNA` | DiscordIntigration.py:123-128 | The stripped text "Specs:" yields "N/A". |
| `Cards.TrailingSpecsLabelReadsEmpty` | DiscordIntigration.py:124-126 | The text "Specs: " splits into two pieces, so it yields "" rather than "N/A". |
| `Cards.FieldsLastWins` | DiscordIntigration.py:105-128 | After the detail loop, a key is present exactly when it was already present or some line filled it. It then holds the value of the last line that filled it. |
| `Cards.FieldsKeys` | DiscordIntigration.py:107-128 | The detail loop fills only the nine keys of the label chain. |
| `Cards.LastValueKey` | DiscordIntigration.py:107-128 | Any key a line fills is one of the nine keys of the label chain. |
| `Cards.ParseCards` | DiscordIntigration.py:97-142 | Reading succeeds exactly when no card raises, and then yields one listing per card, in page order, each that card's own reading. Otherwise it fails with the fault of the first card that raises. |
| `Cards.TimeTagRoundTrip` | DiscordIntigration.py:131-133 | A time tag holding the decimal text of an integer is read back as that integer. |
| `Strings.SplitHasSecondPiece` | DiscordIntigration.py:124-125 | `split` gives more than one piece exactly when the separator occurs in the text. |
| `Strings.ParseShowInt` | DiscordIntigration.py:133 | `int()` of an integer's decimal text gives the integer back. |
| `Xml.FirstTagged` | Sales.py:118-132 | Finds the first child with the tag; none before it has the tag, and none has it when nothing is found. |
| `Xml.Find` | Sales.py:118-124 | `find` returns the first direct child with the requested tag, or nothing when no direct child has it. |
| `Paths.PathJoin` | Sales.py:78 | Joining keeps the root as a prefix and the relative part as a suffix. It inserts a separator when the root does not end in one. |
| `Paths.Basename` | Sales.py:38 | The base name is the separator-free tail after the last separator. |
| `Paths.BasenameOfJoin` | Sales.py:38 | The base name of a root joined with one component is that component. |
| `Images.RewriteImage` | Sales.py:134-146 | A reference the rewrite changes ends up under the data root or the mods root. |
| `Images.RewriteCases` | Sales.py:134-146 | `$data/x` maps to the data root joined with x after removing every `$data/`. `data/x` maps to the data root joined with x, and `Mods/x` to the mods root joined with x. Any other reference is unchanged. |
| `Images.DataPrefixesAgree` | Sales.py:136-142 | `$data/x` and `data/x` land on the same path when x holds no further `$data/`. |
| `Images.ConvertDds` | Sales.py:35-44 | Conversion yields a path exactly when the decoder accepts the source. That path lies under the output directory, and its base name is the source's base name with `.dds` replaced by `.png`. |
| `Images.PngName` | Sales.py:38 | The converted file's name holds no path separator, and it is the source's base name unchanged when that holds no `.dds`. |
| `Images.PngTarget` | Sales.py:38 | The converted file's path is the output directory, then at most one separator, then the renamed base name: it sits directly in the output directory, not in a subdirectory. |
| `Images.PngNameOfDds` | Sales.py:38 | `dir/stem.dds` converts to the file name `stem.png`. |
| `Images.SwapExtension` | Sales.py:149-151 | Replacing a dot-free stem's extension with `replace` gives the stem with the new extension. |
| `Images.KeepExtension` | Sales.py:149-151 | `replace` leaves a different extension of the same length alone. |
| `Images.Normalize` | Sales.py:148-162 | A reference whose `.png` counterpart exists is kept. A reference that is replaced is replaced by a file in the output directory. That file is named after its `.dds` counterpart, which exists and decodes. |
| `Images.NormalizeDecision` | Sales.py:148-162 | The reference is replaced exactly when its `.png` counterpart is missing, its `.dds` counterpart exists and that file decodes. It is then replaced by the converted file; otherwise it is kept. |
| `Images.NormalizeDdsReference` | Sales.py:149-162 | A `.dds` reference with an existing `.png` sibling is kept as the `.dds` path. Otherwise it is converted when it exists and decodes, and kept when not. |
| `Images.NormalizePngReference` | Sales.py:149-162 | An existing `.png` reference is kept. A missing one is replaced by its `.dds` sibling's conversion when that sibling exists and decodes, and kept otherwise. |
| `Images.ConversionIgnoresOutputCache` | Sales.py:149-156 | An already-converted file in the output directory does not stop the conversion from being redone. |
| `Resolver.Extract` | Sales.py:117-172 | Extraction fails, with the missing-`storeData` exception, exactly when the record has no `storeData`. It passes the file path through. |
| `Resolver.ModTarget` | Sales.py:70-78 | A `$moddir$` reference raises IndexError exactly when its cleaned text has no `/`. Otherwise the archive lies under the mods root and the entry name holds no `/`. |
| `Resolver.ResolveArchive` | Sales.py:70-107 | The `$moddir$` branch raises exactly when the reference has no inner path, and then raises IndexError. Details it finds carry the archive's path. |
| `Resolver.ResolveEntry` | Sales.py:80-107 | The zip branch never raises. It finds details only for an existing archive that opens and lists the entry, and then reports the archive's path. |
| `Resolver.ResolveData` | Sales.py:108-114 | The `data/` branch raises only the parse failure or the missing-`storeData` exception. It finds details only for an existing file under the data root, and then reports that file's path. |
| `Resolver.Resolve` | Sales.py:69-114 | Resolution raises the missing-reference exception exactly when the item has no `xmlFilename`. It finds details only for `$moddir$` and `data/` references. |
| `Resolver.FlattenSpecs` | Sales.py:122-125 | The flattened specs are empty exactly when `<specs>` has no children, and a single child gives its own entry. |
| `Resolver.FlattenSpecsShape` | Sales.py:122-125 | No spec children flatten to "", and one child to "tag: text", where a missing text renders as "None". Two runs of children flatten to their halves joined by one space, and the result is empty only without children. |
| `Resolver.ExtractFields` | Sales.py:117-172 | Extraction fails exactly when `storeData` is missing. Otherwise the name, brand and category are their elements' text, or "Unknown" when the element is missing. The specs are the flattened `<specs>` children, or "" without them. A non-empty image reference is rewritten onto the roots and then normalised; a missing or empty one reads "". The file path is passed through. |
| `Resolver.CleanModdir` | Sales.py:72 | Removing `$moddir$` and stripping returns the rest of a plain reference unchanged. |
| `Resolver.ModTargetTwoSegments` | Sales.py:70-78 | `$moddir$A/F` names the archive `A.zip` under the mods root and the entry `F`. |
| `Resolver.ModTargetThreeSegments` | Sales.py:74-75 | `$moddir$A/B/C` names entry `B`: the second segment only. |
| `Resolver.ModTargetNoSlash` | Sales.py:74-75 | `$moddir$A` with no `/` raises IndexError. |
| `Resolver.ArchiveOutcome` | Sales.py:80-107 | Reading an archive entry never raises. It gives details exactly when the archive exists and opens, lists the entry, and the entry parses with `storeData`. |
| `Resolver.ResolveArchiveCases` | Sales.py:80-107 | A well-formed archive reference never raises. It resolves exactly when the archive exists and opens, lists the entry, and the entry parses with `storeData`. The details are then those extracted, with the archive's path. |
| `Resolver.ResolveDataCases` | Sales.py:108-114 | A `data/P` reference gives nothing when the data root joined with P is missing. It raises when that file does not parse. Otherwise it gives the extraction's details, or raises its exception. |
| `Resolver.ResolveOtherPrefix` | Sales.py:70-114 | A reference with neither the `$moddir$` nor the `data/` prefix gives nothing. |
| `Resolver.ResolveIgnoresModsAndDollarData` | Sales.py:70-114 | `Mods/` and `$data/` definition references give nothing. |
| `Resolver.ArchiveAndPlainAgree` | Sales.py:101-113 | The same record read from an archive entry and from a `data/` file gives the same fields except the file path. |
| `Listings.RowOf` | Sales.py:214-222 | An item's loop body raises exactly when resolution raises. An unresolved item gets the placeholder fields and no card. A resolved item gets the resolved fields and a card. |
| `Listings.Pipeline` | Sales.py:204-222 | A loop that succeeds yields one row per item. A loop that fails fails with the exception of one of its items. |
| `Listings.PipelineRows` | Sales.py:204-222 | The loop succeeds exactly when no item raises, with one row per item in order. Otherwise it fails with the exception of the first item that raises. |
| `Listings.Page` | Sales.py:222-242 | The page holds only rendered rows, each taken from the rows. |
| `Listings.PageAppend` | Sales.py:204-242 | The cards keep the item order: the page of two runs of rows is the first run's cards followed by the second's. |
| `Listings.PageHoldsResolved` | Sales.py:222-242 | A row is on the page exactly when it is among the rows and resolved. |
| `Listings.UnresolvedFallsBack` | Sales.py:215-220 | An unresolved item gets "Unknown Vehicle", "", "Unknown Brand", "Unknown Category", "" and "File not found", and no card. |

## Left out

- Image decoding and writing (PIL), zip reading, XML parsing and HTML parsing: the model takes their results as parameters.
  - The parsed HTML is given as each card's title, detail texts, time tag and image `src`.
  - The detail texts are given after `get_text(strip=True)`.
- Conversions performed during a run are not added to the file-system snapshot.
- The extraction of `store_series7810.dds` from a mod archive (Sales.py:95). It happens only after the inner XML was found and parsed (Sales.py:89-95). Its result is only logged, and its file writes are not modelled.
- The numeric formatting of price, damage, wear and operating time, and the rest of the HTML text of a card (Sales.py:206-242). These use floating point. The exceptions they can raise are not modelled either:
  - `operatingTime` is converted at Sales.py:211 for every item, before resolution. A malformed value raises `ValueError` there.
  - For a resolved item, a missing `price`, `damage` or `wear` attribute reaches `float(None)` at Sales.py:226-229 and raises `TypeError`. A malformed one raises `ValueError`.
- Discord I/O:
  - channel lookup and message sending;
  - the embed's contents;
  - the `KeyError` that `send_vehicle_data` (DiscordIntigration.py:72-89) raises for a card lacking any of the keys `image`, `specs`, `price`, `age`, `damage`, `wear`, `operating_time`, `time_left_old`, `brand` or `category`.
    - It comes after the banner (lines 165 and 171) and before the save (line 178). So the banner goes out with no embed after it, and neither the new record nor the last-chance flag set at line 166 is saved.
    - The model sends the embed of every posted listing. `NotifyProps.BannerThenDetail` and every lemma that states it (`NotifyProps.AppendGroup`, `NotifyProps.StepStreamInv`, `NotifyProps.StepInv`, `NotifyProps.RunInv`, `NotifyProps.CycleGuarantees`) rely on this. So do `NotifyProps.StepMessages`, `NotifyProps.StepSettles`, `NotifyProps.RunSettles` and `NotifyProps.RerunIsSilent`.
- JSON loading and saving of the history. A history entry lacking `last_posted` is not represented, and neither is a file that is not valid JSON.
- A card without a `vehicle-title` element, which raises in the code.
- The clock: each cycle uses one reading `now`. The code reads `time.time()` again for each decision and each stamp.
  - Readings and stored stamps are whole seconds here, while `time.time()` gives fractional seconds (DiscordIntigration.py:53 and 177) and the saved history holds those. Against a whole-second reading, flooring a stored stamp leaves every `> 86400` decision unchanged (`NotifyProps.FlooredStampAgrees`). A fractional reading itself is not modelled.
- `Paths.PathJoin`: does not model ntpath's handling of an absolute or drive-qualified second argument, because only relative parts are joined onto the configured roots.
- `Paths.Basename`: does not model drive letters, because references are relative or rooted at the configured directories.
- `Strings.ParseInt`: accepts optional sign and ASCII digits after stripping. It does not accept the underscores or non-ASCII digits Python's `int()` also takes.
- Logging, the task scheduler and bot start-up.
  - An exception that escapes the body of `check_and_post_vehicles` stops the `tasks.loop`. Polling then stays stopped until the bot restarts, not just for that cycle. The model treats every cycle as started afresh from the saved history.

=== FILE: cards.dfy ===
/**
 * Reading the vehicle cards back from the rendered page: each detail line is dispatched
 * on the first label it contains, and the card's time tag and image source are read.
 * The HTML itself is not modelled; a card is given as the texts already extracted from it.
 */
module Cards {
  import opened Wrappers
  import opened Strings

  /** The labels looked for in a detail line, in the order they are tried. */
  const Labels: seq<string> :=
    ["Price", "Age", "Damage", "Wear", "Operating Time", "Time Left", "Brand", "Category", "Specs"]

  /** The dictionary key each label fills, position by position. */
  const Keys: seq<string> :=
    ["price", "age", "damage", "wear", "operating_time", "time_left_old", "brand", "category", "specs"]

  /** What one detail line contributes: a field, nothing, or the IndexError of a missing separator. */
  datatype Line = Field(key: string, value: string) | Unlabelled | NoSeparator(key: string)

  /** `text.split(sep)[1].strip()`, or `None` where indexing `[1]` raises. */
  function SecondPiece(text: string, sep: string): (r: Option<string>)
    requires |sep| > 0
  {
    var parts := Split(text, sep);
    if |parts| < 2 then None else Some(Strip(parts[1]))
  }

  /** `key` filled with `text.split(sep)[1].strip()`, or the IndexError when `sep` does not occur. */
  function SplitField(key: string, sep: string, text: string): (r: Line)
    requires |sep| > 0
  {
    match SecondPiece(text, sep)
    case None => NoSeparator(key)
    case Some(v) => Field(key, v)
  }

  /** The separator each of the first eight labels splits on. */
  function Separator(k: nat): (r: string) {
    if k == 0 then "£" else ":"
  }

  function ColonField(key: string, text: string): (r: Line) {
    SplitField(key, ":", text)
  }

  /** The `if`/`elif` chain over one detail line's text. */
  function ClassifyLine(text: string): (r: Line)
    ensures !r.Unlabelled? ==> r.key in Keys
    ensures r.NoSeparator? ==> r.key != "specs"
  {
    if Contains(text, "Price") then SplitField("price", "£", text)
    else if Contains(text, "Age") then ColonField("age", text)
    else if Contains(text, "Damage") then ColonField("damage", text)
    else if Contains(text, "Wear") then ColonField("wear", text)
    else if Contains(text, "Operating Time") then ColonField("operating_time", text)
    else if Contains(text, "Time Left") then ColonField("time_left_old", text)
    else if Contains(text, "Brand") then ColonField("brand", text)
    else if Contains(text, "Category") then ColonField("category", text)
    else if Contains(text, "Specs") then
      match SecondPiece(text, "Specs: ")
      case None => Field("specs", "N/A")
      case Some(v) => Field("specs", v)
    else Unlabelled
  }

  /** The position of the first label, from position `k` on, that `text` contains. */
  function FirstLabel(text: string, k: nat): (r: Option<nat>)
    requires k <= |Labels|
    ensures r.Some? ==> k <= r.value < |Labels| && Contains(text, Labels[r.value])
    ensures r.Some? ==> forall j :: k <= j < r.value ==> !Contains(text, Labels[j])
    ensures r.None? ==> forall j :: k <= j < |Labels| ==> !Contains(text, Labels[j])
    decreases |Labels| - k
  {
    if k == |Labels| then None
    else if Contains(text, Labels[k]) then Some(k)
    else FirstLabel(text, k + 1)
  }

  /**
   * First match wins: a line fills the key of the first label it contains (or fails on that
   * label's missing separator), and contributes nothing exactly when it contains no label.
   * The Specs label never fails.
   */
  lemma {:induction false} ClassifyFollowsFirstLabel(text: string)
    ensures ClassifyLine(text).Unlabelled? <==> FirstLabel(text, 0).None?
    ensures FirstLabel(text, 0).Some? ==> ClassifyLine(text).key == Keys[FirstLabel(text, 0).value]
    ensures ClassifyLine(text).NoSeparator? ==> FirstLabel(text, 0).value < 8
  {
    var r := FirstLabel(text, 0);
    LabelsSpelled();
    if r.None? {
      assert forall j :: 0 <= j < |Labels| ==> !Contains(text, Labels[j]);
    } else if r.value < 3 {
      ClassifyEarly(text);
    } else if r.value < 6 {
      ClassifyMiddle(text);
    } else {
      ClassifyLate(text);
    }
  }

  /** A line whose first label is Price, Age or Damage. */
  lemma {:induction false} ClassifyEarly(text: string)
    requires FirstLabel(text, 0).Some? && FirstLabel(text, 0).value < 3
    ensures ClassifyLine(text).key == Keys[FirstLabel(text, 0).value] && !ClassifyLine(text).Unlabelled?
    ensures var k := FirstLabel(text, 0).value; ClassifyLine(text) == SplitField(Keys[k], Separator(k), text)
  {
    var k := FirstLabel(text, 0).value;
    LabelsSpelled();
    if k == 1 {
      assert !Contains(text, Labels[0]);
    } else if k == 2 {
      assert !Contains(text, Labels[0]) && !Contains(text, Labels[1]);
    }
  }

  /** A line whose first label is Wear, Operating Time or Time Left. */
  lemma {:induction false} ClassifyMiddle(text: string)
    requires FirstLabel(text, 0).Some? && 3 <= FirstLabel(text, 0).value < 6
    ensures ClassifyLine(text).key == Keys[FirstLabel(text, 0).value] && !ClassifyLine(text).Unlabelled?
    ensures var k := FirstLabel(text, 0).value; ClassifyLine(text) == SplitField(Keys[k], Separator(k), text)
  {
    var k := FirstLabel(text, 0).value;
    LabelsSpelled();
    assert !Contains(text, Labels[0]) && !Contains(text, Labels[1]) && !Contains(text, Labels[2]);
    if k == 4 {
      assert !Contains(text, Labels[3]);
    } else if k == 5 {
      assert !Contains(text, Labels[3]) && !Contains(text, Labels[4]);
    }
  }

  /** A line whose first label is Brand, Category or Specs; only Specs never fails. */
  lemma {:induction false} ClassifyLate(text: string)
    requires FirstLabel(text, 0).Some? && 6 <= FirstLabel(text, 0).value
    ensures ClassifyLine(text).key == Keys[FirstLabel(text, 0).value] && !ClassifyLine(text).Unlabelled?
    ensures FirstLabel(text, 0).value == 8 ==> ClassifyLine(text).Field?
    ensures var k := FirstLabel(text, 0).value; k < 8 ==> ClassifyLine(text) == SplitField(Keys[k], Separator(k), text)
  {
    var k := FirstLabel(text, 0).value;
    LabelsSpelled();
    assert !Contains(text, Labels[0]) && !Contains(text, Labels[1]) && !Contains(text, Labels[2]);
    assert !Contains(text, Labels[3]) && !Contains(text, Labels[4]) && !Contains(text, Labels[5]);
    if k == 7 {
      assert !Contains(text, Labels[6]);
    } else if k == 8 {
      assert !Contains(text, Labels[6]) && !Contains(text, Labels[7]);
    }
  }

  /** The labels and keys, position by position. */
  lemma {:induction false} LabelsSpelled()
    ensures |Labels| == 9 && |Keys| == 9
    ensures Labels[0] == "Price" && Labels[1] == "Age" && Labels[2] == "Damage"
    ensures Labels[3] == "Wear" && Labels[4] == "Operating Time" && Labels[5] == "Time Left"
    ensures Labels[6] == "Brand" && Labels[7] == "Category" && Labels[8] == "Specs"
    ensures Keys[0] == "price" && Keys[1] == "age" && Keys[2] == "damage"
    ensures Keys[3] == "wear" && Keys[4] == "operating_time" && Keys[5] == "time_left_old"
    ensures Keys[6] == "brand" && Keys[7] == "category" && Keys[8] == "specs"
  {
  }

  /**
   * A line whose first label is one of the eight split-on-separator labels raises exactly
   * when that label's separator is missing, and otherwise fills the label's key with the
   * stripped text after the first separator.
   */
  lemma {:induction false} SplitLabelLine(text: string, k: nat)
    requires FirstLabel(text, 0) == Some(k) && k < 8
    ensures ClassifyLine(text).NoSeparator? <==> !Contains(text, Separator(k))
    ensures ClassifyLine(text).NoSeparator? ==> ClassifyLine(text).key == Keys[k]
    ensures Contains(text, Separator(k)) ==>
              ClassifyLine(text) == Field(Keys[k], Strip(Split(text, Separator(k))[1]))
  {
    if k < 3 {
      ClassifyEarly(text);
    } else if k < 6 {
      ClassifyMiddle(text);
    } else {
      ClassifyLate(text);
    }
    SplitHasSecondPiece(text, Separator(k));
  }

  /** A Specs line without the text "Specs: " yields "N/A"; otherwise the stripped text after it. */
  lemma {:induction false} SpecsLine(text: string)
    requires FirstLabel(text, 0) == Some(8)
    ensures !Contains(text, "Specs: ") ==> ClassifyLine(text) == Field("specs", "N/A")
    ensures Contains(text, "Specs: ") ==> ClassifyLine(text) == Field("specs", Strip(Split(text, "Specs: ")[1]))
  {
    LabelsSpelled();
    assert !Contains(text, Labels[0]) && !Contains(text, Labels[1]) && !Contains(text, Labels[2]);
    assert !Contains(text, Labels[3]) && !Contains(text, Labels[4]) && !Contains(text, Labels[5]);
    assert !Contains(text, Labels[6]) && !Contains(text, Labels[7]) && Contains(text, Labels[8]);
    SplitHasSecondPiece(text, "Specs: ");
  }

  /** The text a line keeps after `get_text(strip=True)` for an empty Specs value, "Specs:", reads as "N/A". */
  lemma {:induction false} EmptySpecsReadsNA()
    ensures ClassifyLine("Specs:") == Field("specs", "N/A")
  {
    var t := "Specs:";
    ContainsNeedsHead(t, "Price");
    ContainsNeedsHead(t, "Age");
    ContainsNeedsHead(t, "Damage");
    ContainsNeedsHead(t, "Wear");
    ContainsNeedsHead(t, "Operating Time");
    ContainsNeedsHead(t, "Time Left");
    ContainsNeedsHead(t, "Brand");
    ContainsNeedsHead(t, "Category");
    assert t[0..5] == "Specs";
    ContainsIffOccurs(t, "Specs", 0);
    var parts := Split(t, "Specs: ");
    assert parts == [t];
  }

  /** A line that still ends in "Specs: " is split into two pieces, so it yields "" and not "N/A". */
  lemma {:induction false} TrailingSpecsLabelReadsEmpty()
    ensures ClassifyLine("Specs: ") == Field("specs", "")
  {
    var t := "Specs: ";
    ContainsNeedsHead(t, "Price");
    ContainsNeedsHead(t, "Age");
    ContainsNeedsHead(t, "Damage");
    ContainsNeedsHead(t, "Wear");
    ContainsNeedsHead(t, "Operating Time");
    ContainsNeedsHead(t, "Time Left");
    ContainsNeedsHead(t, "Brand");
    ContainsNeedsHead(t, "Category");
    assert t[0..5] == "Specs";
    ContainsIffOccurs(t, "Specs", 0);
    ReplaceLeading("Specs: ", "", "");
    assert t + "" == t;
    IndexOfIs(t, "Specs: ", 0);
    assert Split(t, "Specs: ") == [""] + Split("", "Specs: ");
  }

  /** The value the last line filling `key` gave it, if any line did. */
  function LastValue(lines: seq<string>, key: string): (r: Option<string>)
    decreases |lines|
  {
    if |lines| == 0 then None
    else
      match LastValue(lines[1..], key)
      case Some(v) => Some(v)
      case None =>
        match ClassifyLine(lines[0])
        case Field(k, v) => if k == key then Some(v) else None
        case _ => None
  }

  /** The detail loop: each line's field is assigned into the dictionary; a missing separator raises. */
  function Fields(lines: seq<string>, m: map<string, string>): (r: Result<map<string, string>, string>)
    ensures r.Success? ==> m.Keys <= r.value.Keys
    decreases |lines|
  {
    if |lines| == 0 then Success(m)
    else
      match ClassifyLine(lines[0])
      case Unlabelled => Fields(lines[1..], m)
      case NoSeparator(k) => Failure(k)
      case Field(k, v) => Fields(lines[1..], m[k := v])
  }

  /**
   * Later lines overwrite earlier ones: after the loop a key holds the value of the last line
   * that filled it, or its earlier value when no line did; no other key appears.
   */
  lemma {:induction false} FieldsLastWins(lines: seq<string>, m: map<string, string>)
    requires Fields(lines, m).Success?
    ensures var r := Fields(lines, m).value;
            forall key :: (key in r <==> key in m || LastValue(lines, key).Some?)
                          && (key in r ==> r[key] == LastValue(lines, key).GetOr(if key in m then m[key] else ""))
    decreases |lines|
  {
    if |lines| > 0 {
      match ClassifyLine(lines[0])
      case Unlabelled => FieldsLastWins(lines[1..], m);
      case Field(k, v) => FieldsLastWins(lines[1..], m[k := v]);
    }
  }

  /** Every key the detail loop fills is one of the nine keys. */
  lemma {:induction false} FieldsKeys(lines: seq<string>)
    requires Fields(lines, map[]).Success?
    ensures forall key :: key in Fields(lines, map[]).value ==> key in Keys
  {
    FieldsLastWins(lines, map[]);
    forall key | key in Fields(lines, map[]).value ensures key in Keys {
      LastValueKey(lines, key);
    }
  }

  lemma {:induction false} LastValueKey(lines: seq<string>, key: string)
    requires LastValue(lines, key).Some?
    ensures key in Keys
    decreases |lines|
  {
    if LastValue(lines[1..], key).Some? {
      LastValueKey(lines[1..], key);
    } else {
      ClassifyFollowsFirstLabel(lines[0]);
    }
  }

  /** The detail loop raises only on a line whose first label's separator is missing, and reports that label's key. */
  lemma {:induction false} FieldsFailure(lines: seq<string>, m: map<string, string>)
    requires Fields(lines, m).Failure?
    ensures exists i :: 0 <= i < |lines| && ClassifyLine(lines[i]) == NoSeparator(Fields(lines, m).error)
    decreases |lines|
  {
    match ClassifyLine(lines[0])
    case NoSeparator(k) => assert ClassifyLine(lines[0]) == NoSeparator(Fields(lines, m).error);
    case Unlabelled =>
      FieldsFailure(lines[1..], m);
      var i :| 0 <= i < |lines[1..]| && ClassifyLine(lines[1..][i]) == NoSeparator(Fields(lines, m).error);
      assert lines[1..][i] == lines[i + 1];
    case Field(k, v) =>
      FieldsFailure(lines[1..], m[k := v]);
      var i :| 0 <= i < |lines[1..]| && ClassifyLine(lines[1..][i]) == NoSeparator(Fields(lines, m).error);
      assert lines[1..][i] == lines[i + 1];
  }

  /** The detail loop raises at the first line that misses its separator, with that line's key. */
  lemma {:induction false} FieldsRaisesAtFirst(lines: seq<string>, m: map<string, string>, i: nat)
    requires i < |lines| && ClassifyLine(lines[i]).NoSeparator?
    requires forall j :: 0 <= j < i ==> !ClassifyLine(lines[j]).NoSeparator?
    ensures Fields(lines, m) == Failure(ClassifyLine(lines[i]).key)
    decreases i
  {
    if i > 0 {
      var rest := lines[1..];
      forall j | 0 <= j < i - 1 ensures !ClassifyLine(rest[j]).NoSeparator? {
        assert rest[j] == lines[j + 1];
      }
      assert rest[i - 1] == lines[i];
      var l := ClassifyLine(lines[0]);
      assert !l.NoSeparator?;
      var m' := if l.Field? then m[l.key := l.value] else m;
      assert Fields(lines, m) == Fields(rest, m');
      FieldsRaisesAtFirst(rest, m', i - 1);
    }
  }

  /** The detail loop raises exactly when some line misses its separator. */
  lemma {:induction false} FieldsRaisesIff(lines: seq<string>, m: map<string, string>)
    ensures Fields(lines, m).Failure? <==> exists i :: 0 <= i < |lines| && ClassifyLine(lines[i]).NoSeparator?
    decreases |lines|
  {
    if Fields(lines, m).Failure? {
      FieldsFailure(lines, m);
    } else if |lines| > 0 {
      match ClassifyLine(lines[0])
      case Unlabelled => FieldsRaisesIff(lines[1..], m);
      case Field(k, v) => FieldsRaisesIff(lines[1..], m[k := v]);
      forall i | 0 < i < |lines| ensures !ClassifyLine(lines[i]).NoSeparator? {
        assert lines[i] == lines[1..][i - 1];
      }
    }
  }

  /** The texts extracted from one `vehicle-card`: title, detail lines, time tag and image `src`. */
  datatype Card = Card(title: string, details: seq<string>, timeTag: Option<string>, src: Option<string>)

  /** The dictionary `parse_html` builds for one card. */
  datatype Vehicle = Vehicle(name: string, fields: map<string, string>, timeLeft: Option<int>, image: Option<string>)

  /** The exceptions reading a card can raise. */
  datatype CardFault = MissingSeparator(key: string) | BadTimeLeft

  /** The last `/`-segment of an image source. */
  function LastSegment(src: string): (r: string) {
    var parts := Split(src, "/");
    parts[|parts| - 1]
  }

  /** One card: details first, then the integer time tag when present, then the image file name. */
  function ParseCard(c: Card): (r: Result<Vehicle, CardFault>)
  {
    match Fields(c.details, map[])
    case Failure(k) => Failure(MissingSeparator(k))
    case Success(m) =>
      var image := match c.src case None => None case Some(s) => Some(LastSegment(s));
      match c.timeTag
      case None => Success(Vehicle(Strip(c.title), m, None, image))
      case Some(t) =>
        match ParseInt(Strip(t))
        case None => Failure(BadTimeLeft)
        case Some(n) => Success(Vehicle(Strip(c.title), m, Some(n), image))
  }

  /**
   * Reading a card raises exactly when a detail line misses its separator or the time tag is
   * not an integer; otherwise the listing carries the stripped title, the detail loop's
   * dictionary, the time tag's value when the tag is present and the image file name when
   * the image has a source.
   */
  lemma {:induction false} ParseCardOutcome(c: Card)
    ensures ParseCard(c).Failure? <==>
              Fields(c.details, map[]).Failure? || (c.timeTag.Some? && ParseInt(Strip(c.timeTag.value)).None?)
    ensures Fields(c.details, map[]).Failure? ==> ParseCard(c) == Failure(MissingSeparator(Fields(c.details, map[]).error))
    ensures ParseCard(c).Failure? <==>
              (exists i :: 0 <= i < |c.details| && ClassifyLine(c.details[i]).NoSeparator?)
              || (c.timeTag.Some? && ParseInt(Strip(c.timeTag.value)).None?)
    ensures ParseCard(c).Success? ==>
              var v := ParseCard(c).value;
              && v.name == Strip(c.title) && Fields(c.details, map[]) == Success(v.fields)
              && v.timeLeft == (if c.timeTag.None? then None else ParseInt(Strip(c.timeTag.value)))
              && v.image == (if c.src.None? then None else Some(LastSegment(c.src.value)))
  {
    FieldsRaisesIff(c.details, map[]);
  }

  /** A card whose detail line `i` is the first to miss its separator raises with that line's key. */
  lemma {:induction false} ParseCardFirstBadLine(c: Card, i: nat)
    requires i < |c.details| && ClassifyLine(c.details[i]).NoSeparator?
    requires forall j :: 0 <= j < i ==> !ClassifyLine(c.details[j]).NoSeparator?
    ensures ParseCard(c) == Failure(MissingSeparator(ClassifyLine(c.details[i]).key))
  {
    FieldsRaisesAtFirst(c.details, map[], i);
  }

  /** `parse_html`: every card in page order, or the first exception. */
  function ParseCards(cs: seq<Card>): (r: Result<seq<Vehicle>, CardFault>)
    ensures r.Success? ==> |r.value| == |cs|
    ensures r.Success? ==> forall k :: 0 <= k < |cs| ==> ParseCard(cs[k]) == Success(r.value[k])
    ensures r.Success? <==> forall k :: 0 <= k < |cs| ==> ParseCard(cs[k]).Success?
    ensures r.Failure? ==>
              exists k :: 0 <= k < |cs| && ParseCard(cs[k]) == Failure(r.error)
                && forall j :: 0 <= j < k ==> ParseCard(cs[j]).Success?
    decreases |cs|
  {
    if |cs| == 0 then Success([])
    else
      match ParseCard(cs[0])
      case Failure(f) => Failure(f)
      case Success(v) =>
        match ParseCards(cs[1..])
        case Failure(f) => Failure(f)
        case Success(vs) => Success([v] + vs)
  }

  /** A time tag holding the decimal text of an integer `n` is read back as `n`. */
  lemma {:induction false} TimeTagRoundTrip(c: Card, n: int)
    requires c.timeTag == Some(ShowInt(n)) && Fields(c.details, map[]).Success?
    ensures ParseCard(c).Success? && ParseCard(c).value.timeLeft == Some(n)
  {
    StripShowInt(n);
    ParseShowInt(n);
    ParseCardOutcome(c);
  }

  /** An integer's decimal text has no white space to strip. */
  lemma {:induction false} StripShowInt(n: int)
    ensures Strip(ShowInt(n)) == ShowInt(n)
  {
    var s := ShowInt(n);
    var digits := if n < 0 then ShowNat(-n) else ShowNat(n);
    assert s[|s| - 1] == digits[|digits| - 1];
    assert IsDigit(s[|s| - 1]);
    assert s[0] == '-' || IsDigit(s[0]);
    StripNoSpace(s);
  }
}

=== FILE: images.dfy ===
/**
 * Image references of a definition record: rewriting the `$data/`, `data/` and `Mods/`
 * prefixes onto the configured roots, naming the converted PNG, and deciding whether
 * the reference is replaced by a freshly converted file.
 */
module Images {
  import opened Wrappers
  import opened Strings
  import opened Paths

  /** Maps a non-empty image reference onto the configured roots by its prefix. */
  function RewriteImage(p: string, cfg: Config): (r: string)
    ensures r != p ==> StartsWith(r, cfg.dataRoot) || StartsWith(r, cfg.modsRoot)
  {
    if StartsWith(p, "$data/") then PathJoin(cfg.dataRoot, Replace(p, "$data/", ""))
    else if StartsWith(p, "data/") then PathJoin(cfg.dataRoot, p[5..])
    else if StartsWith(p, "Mods/") then PathJoin(cfg.modsRoot, p[5..])
    else p
  }

  /** What each prefix of an image reference maps to. */
  lemma {:induction false} RewriteCases(x: string, p: string, cfg: Config)
    ensures RewriteImage("$data/" + x, cfg) == PathJoin(cfg.dataRoot, Replace(x, "$data/", ""))
    ensures RewriteImage("data/" + x, cfg) == PathJoin(cfg.dataRoot, x)
    ensures RewriteImage("Mods/" + x, cfg) == PathJoin(cfg.modsRoot, x)
    ensures !StartsWith(p, "$data/") && !StartsWith(p, "data/") && !StartsWith(p, "Mods/") ==>
              RewriteImage(p, cfg) == p
  {
    assert ("$data/" + x)[..6] == "$data/";
    ReplaceLeading("$data/", x, "");
    assert "" + Replace(x, "$data/", "") == Replace(x, "$data/", "");
    var d := "data/" + x;
    assert d[..5] == "data/" && d[5..] == x && d[0] != "$data/"[0];
    var m := "Mods/" + x;
    assert m[..5] == "Mods/" && m[5..] == x && m[0] != "$data/"[0] && m[0] != "data/"[0];
  }

  /** `$data/x` and `data/x` land on the same file when `x` holds no further `$data/`. */
  lemma {:induction false} DataPrefixesAgree(x: string, cfg: Config)
    requires !Contains(x, "$data/")
    ensures RewriteImage("$data/" + x, cfg) == RewriteImage("data/" + x, cfg)
  {
    RewriteCases(x, "", cfg);
    ReplaceAbsent(x, "$data/", "");
  }

  /** The file name a converted image gets: the base name with `.dds` replaced by `.png`. */
  function PngName(dds: string): (r: string)
    ensures NoSep(r)
    ensures !Contains(Basename(dds), ".dds") ==> r == Basename(dds)
  {
    assert NoSep(".png") by {
      forall i | 0 <= i < 4 ensures !IsSep(".png"[i]) { }
    }
    ReplaceNoSep(Basename(dds), ".dds", ".png");
    assert !Contains(Basename(dds), ".dds") ==> Replace(Basename(dds), ".dds", ".png") == Basename(dds) by {
      if !Contains(Basename(dds), ".dds") { ReplaceAbsent(Basename(dds), ".dds", ".png"); }
    }
    Replace(Basename(dds), ".dds", ".png")
  }

  /** Where a successful conversion writes its output. */
  function PngTarget(dds: string, out: string): (r: string)
    ensures StartsWith(r, out) && Basename(r) == PngName(dds)
    ensures |r| <= |out| + 1 + |PngName(dds)|
  {
    BasenameOfJoin(out, PngName(dds));
    PathJoin(out, PngName(dds))
  }

  /** The PIL conversion: the target path when the decoder accepts the source, `None` otherwise. */
  function ConvertDds(dds: string, out: string, decodes: string -> bool): (r: Option<string>)
    ensures r.Some? <==> decodes(dds)
    ensures r.Some? ==> StartsWith(r.value, out) && Basename(r.value) == PngName(dds)
  {
    if decodes(dds) then
      Some(PngTarget(dds, out))
    else None
  }

  /** In `stem + ext`, with no dot in `stem`, a dotted pattern can only occur at the extension. */
  lemma {:induction false} OnlyDotIsExtension(stem: string, ext: string, pat: string, j: int)
    requires '.' !in stem && |pat| > 0 && pat[0] == '.'
    requires Occurs(stem + ext, pat, j)
    ensures j >= |stem|
  {
    var s := stem + ext;
    assert s[j..j + |pat|][0] == s[j];
  }

  /** Swapping the extension of a dot-free stem: `(stem + ext).replace(ext, ext2) == stem + ext2`. */
  lemma {:induction false} SwapExtension(stem: string, ext: string, ext2: string)
    requires '.' !in stem && |ext| > 0 && ext[0] == '.' && '.' !in ext[1..]
    ensures Replace(stem + ext, ext, ext2) == stem + ext2
  {
    var s := stem + ext;
    forall j | 0 <= j < |stem| ensures !Occurs(s, ext, j) {
      if Occurs(s, ext, j) {
        OnlyDotIsExtension(stem, ext, ext, j);
      }
    }
    assert s[|stem|..|stem| + |ext|] == ext;
    IndexOfIs(s, ext, |stem|);
    assert s[..|stem|] == stem;
    assert s[|stem| + |ext|..] == "";
    assert Split("", ext) == [""];
    assert Split(s, ext) == [stem, ""];
    assert Join([stem, ""], ext2) == stem + ext2 + "";
  }

  /** A different extension of the same length is left alone by `replace`. */
  lemma {:induction false} KeepExtension(stem: string, ext: string, pat: string)
    requires '.' !in stem && |ext| == |pat| && |pat| > 0 && pat[0] == '.' && ext != pat
    ensures Replace(stem + ext, pat, "") == stem + ext
    ensures forall rep :: Replace(stem + ext, pat, rep) == stem + ext
  {
    var s := stem + ext;
    if Contains(s, pat) {
      var j := IndexOf(s, pat).value;
      OnlyDotIsExtension(stem, ext, pat, j);
      assert false;
    }
  }

  /**
   * The image normaliser for a rewritten, non-empty reference `p`: if the `.png` counterpart
   * is absent and the `.dds` counterpart present, the converted file replaces the reference
   * when conversion succeeds; in every other case the reference is kept.
   */
  function Normalize(p: string, cfg: Config, paths: set<string>, decodes: string -> bool): (r: string)
    ensures Replace(p, ".dds", ".png") in paths ==> r == p
    ensures r != p ==>
              var dds := Replace(p, ".png", ".dds");
              dds in paths && decodes(dds) && StartsWith(r, cfg.outputDir) && Basename(r) == PngName(dds)
  {
    var png := Replace(p, ".dds", ".png");
    if png in paths then p
    else
      var dds := Replace(p, ".png", ".dds");
      if dds !in paths then p
      else
        match ConvertDds(dds, cfg.outputDir, decodes)
        case Some(q) => q
        case None => p
  }

  /** The reference is replaced exactly when all three conditions hold, and then by the converted file. */
  lemma {:induction false} NormalizeDecision(p: string, cfg: Config, paths: set<string>, decodes: string -> bool)
    ensures var dds := Replace(p, ".png", ".dds");
            var convert := Replace(p, ".dds", ".png") !in paths && dds in paths && decodes(dds);
            && (convert ==> Normalize(p, cfg, paths, decodes) == PngTarget(dds, cfg.outputDir))
            && (!convert ==> Normalize(p, cfg, paths, decodes) == p)
  {
  }

  /**
   * For a `.dds` reference with a dot-free stem: an existing `.png` sibling keeps the `.dds`
   * reference unchanged; otherwise the file itself must exist and decode for it to be replaced.
   */
  lemma {:induction false} NormalizeDdsReference(stem: string, cfg: Config, paths: set<string>, decodes: string -> bool)
    requires '.' !in stem
    ensures stem + ".png" in paths ==> Normalize(stem + ".dds", cfg, paths, decodes) == stem + ".dds"
    ensures stem + ".png" !in paths && stem + ".dds" in paths && decodes(stem + ".dds") ==>
              Normalize(stem + ".dds", cfg, paths, decodes) == PngTarget(stem + ".dds", cfg.outputDir)
    ensures stem + ".png" !in paths && !(stem + ".dds" in paths && decodes(stem + ".dds")) ==>
              Normalize(stem + ".dds", cfg, paths, decodes) == stem + ".dds"
  {
    var p := stem + ".dds";
    SwapExtension(stem, ".dds", ".png");
    KeepExtension(stem, ".dds", ".png");
    assert Replace(p, ".dds", ".png") == stem + ".png" && Replace(p, ".png", ".dds") == p;
    NormalizeDecision(p, cfg, paths, decodes);
  }

  /**
   * For a `.png` reference with a dot-free stem: it is kept when the file exists, and
   * otherwise replaced by the conversion of its `.dds` sibling when that exists and decodes.
   */
  lemma {:induction false} NormalizePngReference(stem: string, cfg: Config, paths: set<string>, decodes: string -> bool)
    requires '.' !in stem
    ensures stem + ".png" in paths ==> Normalize(stem + ".png", cfg, paths, decodes) == stem + ".png"
    ensures stem + ".png" !in paths && stem + ".dds" in paths && decodes(stem + ".dds") ==>
              Normalize(stem + ".png", cfg, paths, decodes) == PngTarget(stem + ".dds", cfg.outputDir)
    ensures stem + ".png" !in paths && !(stem + ".dds" in paths && decodes(stem + ".dds")) ==>
              Normalize(stem + ".png", cfg, paths, decodes) == stem + ".png"
  {
    var p := stem + ".png";
    SwapExtension(stem, ".png", ".dds");
    KeepExtension(stem, ".png", ".dds");
    assert Replace(p, ".png", ".dds") == stem + ".dds" && Replace(p, ".dds", ".png") == p;
    NormalizeDecision(p, cfg, paths, decodes);
  }

  /** The PNG name of `stem.dds` is `stem.png` for a dot-free, separator-free stem. */
  lemma {:induction false} PngNameOfDds(dir: string, stem: string)
    requires '.' !in stem && NoSep(stem) && (dir == "" || IsSep(dir[|dir| - 1]))
    ensures PngName(dir + stem + ".dds") == stem + ".png"
  {
    assert NoSep(stem + ".dds") by {
      forall i | 0 <= i < |stem + ".dds"| ensures !IsSep((stem + ".dds")[i]) {
        if i < |stem| { assert (stem + ".dds")[i] == stem[i]; }
      }
    }
    assert dir + stem + ".dds" == dir + (stem + ".dds");
    BasenameAfterSep(dir, stem + ".dds");
    SwapExtension(stem, ".dds", ".png");
  }

  /**
   * The cache check looks for the `.png` counterpart of the reference, never at the output
   * directory: a converted file already present there is produced again.
   */
  lemma {:induction false} ConversionIgnoresOutputCache(p: string, cfg: Config, paths: set<string>, decodes: string -> bool)
    requires Replace(p, ".dds", ".png") !in paths
    requires Replace(p, ".png", ".dds") in paths && decodes(Replace(p, ".png", ".dds"))
    requires PngTarget(Replace(p, ".png", ".dds"), cfg.outputDir) != Replace(p, ".dds", ".png")
    ensures var t := PngTarget(Replace(p, ".png", ".dds"), cfg.outputDir);
            Normalize(p, cfg, paths + {t}, decodes) == t && Normalize(p, cfg, paths, decodes) == t
  {
    var png, dds := Replace(p, ".dds", ".png"), Replace(p, ".png", ".dds");
    var t := PngTarget(dds, cfg.outputDir);
    var more := paths + {t};
    assert png !in more && dds in more;
    NormalizeDecision(p, cfg, paths, decodes);
    NormalizeDecision(p, cfg, more, decodes);
  }
}

=== FILE: listings.dfy ===
/**
 * The main loop of the page generator: every sale item is resolved, an unresolvable one
 * falls back to placeholder fields and is left off the page, and an escaping exception
 * ends the run before the page is written.
 */
module Listings {
  import opened Wrappers
  import opened Paths
  import opened Resolver

  /** One `<item>` of the sale-state file; only its `xmlFilename` attribute feeds the resolver. */
  datatype SaleItem = SaleItem(xmlFilename: Option<string>)

  /** The fields the loop computes for an item, and whether it writes a card for it. */
  datatype Row = Row(
    name: string, specs: string, brand: string, category: string,
    image: string, filePath: string, rendered: bool)

  /** The fields of an item whose definition could not be resolved. */
  const Placeholder: Row :=
    Row("Unknown Vehicle", "", "Unknown Brand", "Unknown Category", "", "File not found", false)

  /** The loop body for one item. */
  function RowOf(item: SaleItem, cfg: Config, w: World): (r: Result<Row, Fault>)
    ensures r.Failure? <==> Resolve(item.xmlFilename, cfg, w).Raised?
    ensures r.Success? ==> (r.value.rendered <==> Resolve(item.xmlFilename, cfg, w).Found?)
    ensures r.Success? && !r.value.rendered ==> r.value == Placeholder
    ensures r.Success? && r.value.rendered ==>
              var d := Resolve(item.xmlFilename, cfg, w).details;
              r.value == Row(d.name, d.specs, d.brand, d.category, d.image, d.filePath, true)
  {
    match Resolve(item.xmlFilename, cfg, w)
    case Raised(f) => Failure(f)
    case NotFound => Success(Placeholder)
    case Found(d) => Success(Row(d.name, d.specs, d.brand, d.category, d.image, d.filePath, true))
  }

  /** The whole loop: the rows in item order, or the first exception that escapes. */
  function Pipeline(items: seq<SaleItem>, cfg: Config, w: World): (r: Result<seq<Row>, Fault>)
    ensures r.Success? ==> |r.value| == |items|
    ensures r.Failure? ==> exists k :: 0 <= k < |items| && RowOf(items[k], cfg, w) == Failure(r.error)
    decreases |items|
  {
    if |items| == 0 then Success([])
    else
      match RowOf(items[0], cfg, w)
      case Failure(f) => Failure(f)
      case Success(row) =>
        match Pipeline(items[1..], cfg, w)
        case Failure(f) => Failure(f)
        case Success(rows) => Success([row] + rows)
  }

  /** The cards written to the page: the rendered rows, in order. */
  function Page(rows: seq<Row>): (cards: seq<Row>)
    ensures |cards| <= |rows|
    ensures forall k :: 0 <= k < |cards| ==> cards[k].rendered && cards[k] in rows
    decreases |rows|
  {
    if |rows| == 0 then []
    else if rows[0].rendered then [rows[0]] + Page(rows[1..])
    else Page(rows[1..])
  }

  /**
   * The loop succeeds with one row per item, each the item's own row, exactly when no item
   * raises; otherwise it fails with the exception of the first item that raises.
   */
  lemma {:induction false} PipelineRows(items: seq<SaleItem>, cfg: Config, w: World)
    ensures Pipeline(items, cfg, w).Success? <==> forall k :: 0 <= k < |items| ==> RowOf(items[k], cfg, w).Success?
    ensures Pipeline(items, cfg, w).Success? ==>
              var rows := Pipeline(items, cfg, w).value;
              |rows| == |items| && forall k :: 0 <= k < |items| ==> rows[k] == RowOf(items[k], cfg, w).value
    ensures Pipeline(items, cfg, w).Failure? ==>
              exists k :: 0 <= k < |items| && RowOf(items[k], cfg, w) == Failure(Pipeline(items, cfg, w).error)
                && forall j :: 0 <= j < k ==> RowOf(items[j], cfg, w).Success?
    decreases |items|
  {
    if |items| > 0 {
      PipelineRows(items[1..], cfg, w);
      assert forall k :: 1 <= k < |items| ==> items[1..][k - 1] == items[k];
      if RowOf(items[0], cfg, w).Success? && Pipeline(items[1..], cfg, w).Failure? {
        var k :| 0 <= k < |items[1..]| && RowOf(items[1..][k], cfg, w) == Failure(Pipeline(items[1..], cfg, w).error)
                 && forall j :: 0 <= j < k ==> RowOf(items[1..][j], cfg, w).Success?;
        assert RowOf(items[k + 1], cfg, w) == Failure(Pipeline(items, cfg, w).error);
        assert forall j :: 0 <= j < k + 1 ==> RowOf(items[j], cfg, w).Success? by {
          forall j | 0 <= j < k + 1 ensures RowOf(items[j], cfg, w).Success? {
            if j > 0 { assert items[j] == items[1..][j - 1]; }
          }
        }
      }
      if RowOf(items[0], cfg, w).Failure? {
        assert RowOf(items[0], cfg, w) == Failure(Pipeline(items, cfg, w).error);
      }
    }
  }

  /** The page holds exactly the rows of resolved items, and a row is on it only if it resolved. */
  lemma {:induction false} PageHoldsResolved(rows: seq<Row>)
    ensures forall r :: r in Page(rows) <==> r in rows && r.rendered
    ensures forall r :: r in rows && !r.rendered ==> r !in Page(rows)
    decreases |rows|
  {
    if |rows| > 0 {
      PageHoldsResolved(rows[1..]);
      assert rows == [rows[0]] + rows[1..];
    }
  }

  /** The cards keep the rows' order: the page of two runs of rows is the first run's cards, then the second's. */
  lemma {:induction false} PageAppend(a: seq<Row>, b: seq<Row>)
    ensures Page(a + b) == Page(a) + Page(b)
    decreases |a|
  {
    if |a| > 0 {
      assert (a + b)[0] == a[0] && (a + b)[1..] == a[1..] + b;
      PageAppend(a[1..], b);
    } else {
      assert a + b == b;
    }
  }

  /** An item that does not resolve is listed with the placeholder fields and gets no card. */
  lemma {:induction false} UnresolvedFallsBack(item: SaleItem, cfg: Config, w: World)
    requires Resolve(item.xmlFilename, cfg, w) == NotFound
    ensures RowOf(item, cfg, w) == Success(Placeholder)
    ensures Placeholder.name == "Unknown Vehicle" && Placeholder.brand == "Unknown Brand"
    ensures Placeholder.category == "Unknown Category" && Placeholder.image == ""
    ensures Placeholder.filePath == "File not found" && !Placeholder.rendered
  {
  }
}

=== FILE: notify.dfy ===
/**
 * The notification state engine of the chat bot: the per-listing decision whether to post,
 * and one polling cycle as a fold over the listings read from the page, returning the new
 * history and the messages sent, in order.
 */
module Notify {
  import opened Wrappers
  import opened Cards

  /** The re-announcement interval, in seconds. */
  const Day: int := 86400

  const LastChanceText: string := "LAST CHANCE SALE ITEM"
  const NewItemsText: string := "NEW SALE ITEMS"

  /**
   * One entry of the history file. `lastChance` is `None` when the stored entry has no
   * `last_chance_posted` key; entries the bot writes itself always have one.
   */
  datatype Record = Record(lastPosted: int, lastChance: Option<bool>)

  /** The history file: listing name to record. */
  type History = map<string, Record>

  /** A message sent to the channel: a banner line or a listing's embed. */
  datatype Event = Banner(text: string) | Detail(name: string)

  /** The messages sent for one posted listing: an optional banner, then its embed. */
  function Group(banner: Option<string>, name: string): (r: seq<Event>) {
    match banner
    case None => [Detail(name)]
    case Some(t) => [Banner(t), Detail(name)]
  }

  /** `should_post`: post, stay quiet, or the KeyError of a card without a time tag. */
  datatype Verdict = Post | Suppress | MissingTimeLeft

  function ShouldPost(v: Vehicle, h: History, now: int): (r: Verdict)
    ensures v.name !in h ==> r == Post
    ensures r == MissingTimeLeft <==> v.name in h && now - h[v.name].lastPosted <= Day && v.timeLeft.None?
    ensures r == Suppress ==> v.name in h && now - h[v.name].lastPosted <= Day
  {
    if v.name !in h then Post
    else
      var r := h[v.name];
      if now - r.lastPosted > Day then Post
      else
        match v.timeLeft
        case None => MissingTimeLeft
        case Some(t) => if t <= 1 && !r.lastChance.GetOr(false) then Post else Suppress
  }

  /**
   * The states a listing name can be in: never seen, seen within the last day with time to
   * spare, due for its daily re-announcement, and within the day on its last hour with the
   * last-chance announcement pending or done.
   */
  datatype Phase = NeverSeen | Cooling | Due | LastChancePending | LastChanceDone

  function PhaseOf(h: History, name: string, timeLeft: int, now: int): (r: Phase) {
    if name !in h then NeverSeen
    else if now - h[name].lastPosted > Day then Due
    else if timeLeft > 1 then Cooling
    else if h[name].lastChance == Some(true) then LastChanceDone
    else LastChancePending
  }

  /** The state of one polling cycle: the history, the messages sent so far, whether the
   *  "NEW SALE ITEMS" banner went out, and whether an exception ended the cycle. */
  datatype Cycle = Cycle(history: History, events: seq<Event>, announced: bool, crashed: bool)

  /** The loop body of `check_and_post_vehicles` for one listing. */
  function Step(c: Cycle, v: Vehicle, now: int): (r: Cycle)
    ensures c.crashed ==> r == c
    ensures c.events <= r.events && |r.events| <= |c.events| + 2
    ensures c.history.Keys <= r.history.Keys
    ensures forall n :: n in r.history && n != v.name ==> n in c.history && r.history[n] == c.history[n]
  {
    if c.crashed then c
    else
      match ShouldPost(v, c.history, now)
      case Suppress => c
      case MissingTimeLeft => c.(crashed := true)
      case Post =>
        var h := if v.name in c.history then c.history else c.history[v.name := Record(0, Some(false))];
        var r := h[v.name];
        if v.timeLeft.GetOr(0) <= 1 && r.lastChance != Some(true) then
          // Indexing `last_chance_posted` raises KeyError when the stored entry lacks it.
          if r.lastChance.None? then c.(crashed := true)
          else Cycle(h[v.name := Record(now, Some(true))],
                     c.events + Group(Some(LastChanceText), v.name), c.announced, false)
        else if !c.announced then
          Cycle(h[v.name := r.(lastPosted := now)], c.events + Group(Some(NewItemsText), v.name), true, false)
        else
          Cycle(h[v.name := r.(lastPosted := now)], c.events + Group(None, v.name), true, false)
  }

  /** The rest of the cycle from state `c` over the listings `vs`. */
  function Run(c: Cycle, vs: seq<Vehicle>, now: int): (r: Cycle)
    ensures c.crashed ==> r == c
    ensures c.events <= r.events
    ensures c.history.Keys <= r.history.Keys
    ensures forall n :: n in r.history && n !in c.history ==> exists k :: 0 <= k < |vs| && vs[k].name == n
    decreases |vs|
  {
    if |vs| == 0 then c else Run(Step(c, vs[0], now), vs[1..], now)
  }

  /** One cycle from a loaded history, with one clock reading `now`. */
  function RunCycle(h: History, vs: seq<Vehicle>, now: int): (r: Cycle)
    ensures h.Keys <= r.history.Keys
    ensures forall n :: n in r.history && n !in h ==> exists k :: 0 <= k < |vs| && vs[k].name == n
  {
    Run(Cycle(h, [], false, false), vs, now)
  }

  /** One tick of the task loop: read the cards, then run the cycle; a card that raises ends the tick. */
  function Tick(h: History, cards: seq<Card>, now: int): (r: Cycle)
    ensures h.Keys <= r.history.Keys
    ensures ParseCards(cards).Failure? ==> r.crashed && r.events == [] && r.history == h
  {
    match ParseCards(cards)
    case Failure(_) => Cycle(h, [], false, true)
    case Success(vs) => RunCycle(h, vs, now)
  }
}

=== FILE: notify_props.dfy ===
/**
 * What one polling cycle guarantees: the decision rule's cases, the shape of the message
 * stream, what happens to the history, and that running the same cycle again is silent.
 */
module NotifyProps {
  import opened Wrappers
  import opened Cards
  import opened Notify

  /**
   * Stored stamps are fractional seconds, readings here whole: against a whole-second
   * reading, the 24-hour test on a stamp's floor decides as the test on the stamp itself.
   */
  lemma FlooredStampAgrees(now: int, stamp: real)
    ensures now - stamp.Floor > Day <==> now as real - stamp > Day as real
  {
  }

  /** The decision rule, case by case. */
  lemma {:induction false} ShouldPostCases(v: Vehicle, h: History, now: int)
    ensures v.name !in h ==> ShouldPost(v, h, now) == Post
    ensures v.name in h && now - h[v.name].lastPosted > Day ==> ShouldPost(v, h, now) == Post
    ensures v.name in h && now - h[v.name].lastPosted == Day && v.timeLeft.Some? && v.timeLeft.value > 1 ==>
              ShouldPost(v, h, now) == Suppress
    ensures v.name in h && v.timeLeft.Some? && v.timeLeft.value <= 1 && h[v.name].lastChance != Some(true) ==>
              ShouldPost(v, h, now) == Post
    ensures v.name in h && now - h[v.name].lastPosted <= Day && h[v.name].lastChance == Some(true) && v.timeLeft.Some? ==>
              ShouldPost(v, h, now) == Suppress
    ensures ShouldPost(v, h, now) == MissingTimeLeft <==>
              v.name in h && now - h[v.name].lastPosted <= Day && v.timeLeft.None?
  {
  }

  /** A listing is posted exactly in the never-seen, due and last-chance-pending states. */
  lemma {:induction false} ShouldPostByPhase(v: Vehicle, h: History, now: int)
    requires v.timeLeft.Some?
    ensures var p := PhaseOf(h, v.name, v.timeLeft.value, now);
            && (ShouldPost(v, h, now) == Post <==> p == NeverSeen || p == Due || p == LastChancePending)
            && (ShouldPost(v, h, now) == Suppress <==> p == Cooling || p == LastChanceDone)
  {
  }

  /** The names of the listings whose embeds were sent, in order. */
  function DetailNames(evs: seq<Event>): (r: seq<string>)
    decreases |evs|
  {
    if |evs| == 0 then []
    else DetailNames(evs[..|evs| - 1]) + (match evs[|evs| - 1] case Detail(n) => [n] case Banner(_) => [])
  }

  /** The names whose embed directly follows a "LAST CHANCE SALE ITEM" banner, in order. */
  function LastChanceNames(evs: seq<Event>): (r: seq<string>)
    decreases |evs|
  {
    if |evs| < 2 then []
    else LastChanceNames(evs[..|evs| - 1])
         + (if evs[|evs| - 2] == Banner(LastChanceText) && evs[|evs| - 1].Detail? then [evs[|evs| - 1].name] else [])
  }

  /** How many "NEW SALE ITEMS" banners were sent. */
  function NewBanners(evs: seq<Event>): (r: nat)
    decreases |evs|
  {
    if |evs| == 0 then 0
    else NewBanners(evs[..|evs| - 1]) + (if evs[|evs| - 1] == Banner(NewItemsText) then 1 else 0)
  }

  /** Every banner is immediately followed by an embed, so an embed has at most one banner before it. */
  predicate BannerThenDetail(evs: seq<Event>) {
    forall i :: 0 <= i < |evs| && evs[i].Banner? ==> i + 1 < |evs| && evs[i + 1].Detail?
  }

  predicate NoDup(s: seq<string>) {
    forall i, j :: 0 <= i < j < |s| ==> s[i] != s[j]
  }

  lemma {:induction false} NoDupAppend(s: seq<string>, n: string)
    requires NoDup(s) && n !in s
    ensures NoDup(s + [n])
  {
    var t := s + [n];
    forall i, j | 0 <= i < j < |t| ensures t[i] != t[j] {
      if j == |s| { assert t[i] == s[i]; } else { assert t[i] == s[i] && t[j] == s[j]; }
    }
  }

  lemma {:induction false} AppendOne(a: seq<Event>, x: Event)
    ensures DetailNames(a + [x]) == DetailNames(a) + (match x case Detail(n) => [n] case Banner(_) => [])
    ensures NewBanners(a + [x]) == NewBanners(a) + (if x == Banner(NewItemsText) then 1 else 0)
    ensures LastChanceNames(a + [x]) ==
              LastChanceNames(a) + (if |a| > 0 && a[|a| - 1] == Banner(LastChanceText) && x.Detail? then [x.name] else [])
  {
    assert (a + [x])[..|a|] == a;
  }

  /** Appending one listing's messages to a well-formed stream keeps it well formed. */
  lemma {:induction false} AppendGroupShape(a: seq<Event>, banner: Option<string>, n: string)
    requires BannerThenDetail(a)
    ensures BannerThenDetail(a + Group(banner, n))
  {
    var e := a + Group(banner, n);
    forall i | 0 <= i < |e| && e[i].Banner? ensures i + 1 < |e| && e[i + 1].Detail? {
      if i < |a| {
        assert e[i] == a[i];
        if i + 1 < |a| {
          assert e[i + 1] == a[i + 1];
        }
      }
    }
  }

  /** Appending one listing's messages to a well-formed stream. */
  lemma {:induction false} AppendGroup(a: seq<Event>, banner: Option<string>, n: string)
    requires BannerThenDetail(a)
    ensures BannerThenDetail(a + Group(banner, n))
    ensures DetailNames(a + Group(banner, n)) == DetailNames(a) + [n]
    ensures NewBanners(a + Group(banner, n)) == NewBanners(a) + (if banner == Some(NewItemsText) then 1 else 0)
    ensures LastChanceNames(a + Group(banner, n)) ==
              LastChanceNames(a) + (if banner == Some(LastChanceText) then [n] else [])
  {
    AppendGroupShape(a, banner, n);
    var lastIsBanner := |a| > 0 && a[|a| - 1] == Banner(LastChanceText);
    assert !lastIsBanner;
    match banner
    case None =>
      assert a + Group(banner, n) == a + [Detail(n)];
      AppendOne(a, Detail(n));
    case Some(t) =>
      var a1 := a + [Banner(t)];
      AppendOne(a, Banner(t));
      AppendOne(a1, Detail(n));
      assert a1[|a1| - 1] == Banner(t);
      assert a1 + [Detail(n)] == a + Group(banner, n);
  }

  /** Different banners make different streams, and every group sends something. */
  lemma {:induction false} GroupDistinct(a: seq<Event>, b1: Option<string>, b2: Option<string>, n: string)
    ensures a + Group(b1, n) != a
    ensures a + Group(b1, n) == a + Group(b2, n) ==> b1 == b2
  {
    assert |a + Group(b1, n)| > |a|;
    if a + Group(b1, n) == a + Group(b2, n) {
      assert |Group(b1, n)| == |Group(b2, n)|;
      if b1.Some? && b2.Some? {
        assert (a + Group(b1, n))[|a|] == Banner(b1.value);
        assert (a + Group(b2, n))[|a|] == Banner(b2.value);
      }
    }
  }

  /** The last-chance branch of the loop body: one hour or less left (none counts as zero) and the flag not yet set. */
  predicate LastChanceDue(c: Cycle, v: Vehicle) {
    v.timeLeft.GetOr(0) <= 1 && (v.name in c.history ==> c.history[v.name].lastChance != Some(true))
  }

  /** The record a posted name has before the branch on its time left: its stored one, or a fresh one. */
  function Entry(h: History, name: string): (r: Record) {
    if name in h then h[name] else Record(0, Some(false))
  }

  /** The three outcomes of a step: nothing changes, the last-chance branch, or the new-items/plain branch. */
  lemma {:induction false} StepQuiet(c: Cycle, v: Vehicle, now: int)
    requires c.crashed || ShouldPost(v, c.history, now) != Post
             || (LastChanceDue(c, v) && Entry(c.history, v.name).lastChance.None?)
    ensures Step(c, v, now).events == c.events && Step(c, v, now).history == c.history
  {
  }

  lemma {:induction false} StepLastChance(c: Cycle, v: Vehicle, now: int)
    requires !c.crashed && ShouldPost(v, c.history, now) == Post
    requires LastChanceDue(c, v) && Entry(c.history, v.name).lastChance.Some?
    ensures Step(c, v, now) ==
              Cycle(c.history[v.name := Record(now, Some(true))],
                    c.events + Group(Some(LastChanceText), v.name), c.announced, false)
  {
    var h := if v.name in c.history then c.history else c.history[v.name := Record(0, Some(false))];
    assert h[v.name := Record(now, Some(true))] == c.history[v.name := Record(now, Some(true))];
  }

  lemma {:induction false} StepRegular(c: Cycle, v: Vehicle, now: int)
    requires !c.crashed && ShouldPost(v, c.history, now) == Post && !LastChanceDue(c, v)
    ensures Step(c, v, now) ==
              Cycle(c.history[v.name := Entry(c.history, v.name).(lastPosted := now)],
                    c.events + Group(if c.announced then None else Some(NewItemsText), v.name), true, false)
  {
    var h := if v.name in c.history then c.history else c.history[v.name := Record(0, Some(false))];
    var r' := Entry(c.history, v.name).(lastPosted := now);
    assert h[v.name := r'] == c.history[v.name := r'];
  }

  /** The message stream is well formed and carries one new-items banner exactly when it was announced. */
  predicate StreamInv(c: Cycle) {
    && BannerThenDetail(c.events)
    && NewBanners(c.events) == (if c.announced then 1 else 0)
  }

  /**
   * Relative to the loaded history `h0`: nothing removed, nothing added or changed except the
   * names posted, each of which is stamped with `now`, and no set last-chance flag cleared.
   */
  predicate HistoryInv(h0: History, now: int, c: Cycle) {
    && h0.Keys <= c.history.Keys
    && (forall n :: n in c.history ==> n in h0 || n in DetailNames(c.events))
    && (forall n :: n in h0 && n !in DetailNames(c.events) ==> c.history[n] == h0[n])
    && (forall n :: n in DetailNames(c.events) ==> n in c.history && c.history[n].lastPosted == now)
    && (forall n :: n in h0 && h0[n].lastChance == Some(true) ==> c.history[n].lastChance == Some(true))
  }

  /** Each last-chance banner went out once, set its name's flag, and was not already recorded as sent. */
  predicate LastChanceInv(h0: History, c: Cycle) {
    && NoDup(LastChanceNames(c.events))
    && (forall n :: n in LastChanceNames(c.events) ==>
          n in c.history && c.history[n].lastChance == Some(true) && !(n in h0 && h0[n].lastChance == Some(true)))
  }

  predicate Inv(h0: History, now: int, c: Cycle) {
    StreamInv(c) && HistoryInv(h0, now, c) && LastChanceInv(h0, c)
  }

  lemma {:induction false} StepStreamInv(c: Cycle, v: Vehicle, now: int)
    requires StreamInv(c)
    ensures StreamInv(Step(c, v, now))
  {
    if !c.crashed && ShouldPost(v, c.history, now) == Post {
      var h := if v.name in c.history then c.history else c.history[v.name := Record(0, Some(false))];
      var r := h[v.name];
      if v.timeLeft.GetOr(0) <= 1 && r.lastChance != Some(true) {
        if r.lastChance.Some? {
          AppendGroup(c.events, Some(LastChanceText), v.name);
        }
      } else if !c.announced {
        AppendGroup(c.events, Some(NewItemsText), v.name);
      } else {
        AppendGroup(c.events, None, v.name);
      }
    }
  }

  /** A posting step replaces at most the posted name's record, stamping it with `now`. */
  lemma {:induction false} PostedRecord(c: Cycle, v: Vehicle, now: int)
    requires !c.crashed && BannerThenDetail(c.events)
    ensures var s := Step(c, v, now);
            || (s.events == c.events && s.history == c.history)
            || (&& DetailNames(s.events) == DetailNames(c.events) + [v.name]
                && v.name in s.history
                && s.history == c.history[v.name := s.history[v.name]]
                && s.history[v.name].lastPosted == now
                && (v.name in c.history && c.history[v.name].lastChance == Some(true) ==>
                      s.history[v.name].lastChance == Some(true)))
  {
    if ShouldPost(v, c.history, now) != Post || (LastChanceDue(c, v) && Entry(c.history, v.name).lastChance.None?) {
      StepQuiet(c, v, now);
    } else if LastChanceDue(c, v) {
      StepLastChance(c, v, now);
      AppendGroup(c.events, Some(LastChanceText), v.name);
    } else {
      StepRegular(c, v, now);
      AppendGroup(c.events, if c.announced then None else Some(NewItemsText), v.name);
    }
  }

  lemma {:induction false} StepHistoryInv(h0: History, now: int, c: Cycle, v: Vehicle)
    requires BannerThenDetail(c.events) && HistoryInv(h0, now, c)
    ensures HistoryInv(h0, now, Step(c, v, now))
  {
    if !c.crashed {
      PostedRecord(c, v, now);
    }
  }

  /** A step that adds no last-chance banner and keeps the flags of those sent keeps the last-chance facts. */
  lemma {:induction false} LastChanceKept(h0: History, c: Cycle, s: Cycle)
    requires LastChanceInv(h0, c)
    requires LastChanceNames(s.events) == LastChanceNames(c.events)
    requires forall x :: x in LastChanceNames(c.events) ==> x in s.history && s.history[x].lastChance == Some(true)
    ensures LastChanceInv(h0, s)
  {
  }

  lemma {:induction false} StepLastChanceInv(h0: History, now: int, c: Cycle, v: Vehicle)
    requires BannerThenDetail(c.events) && HistoryInv(h0, now, c) && LastChanceInv(h0, c)
    ensures LastChanceInv(h0, Step(c, v, now))
  {
    var s := Step(c, v, now);
    var n := v.name;
    var prior := LastChanceNames(c.events);
    if c.crashed || ShouldPost(v, c.history, now) != Post
       || (LastChanceDue(c, v) && Entry(c.history, n).lastChance.None?) {
      StepQuiet(c, v, now);
      LastChanceKept(h0, c, s);
    } else if LastChanceDue(c, v) {
      StepLastChance(c, v, now);
      AppendGroup(c.events, Some(LastChanceText), n);
      assert n !in prior;
      NoDupAppend(prior, n);
      forall x | x in LastChanceNames(s.events)
        ensures x in s.history && s.history[x].lastChance == Some(true) && !(x in h0 && h0[x].lastChance == Some(true))
      {
        if x != n {
          assert x in prior;
        }
      }
    } else {
      StepRegular(c, v, now);
      var b := if c.announced then None else Some(NewItemsText);
      assert NewItemsText[0] != LastChanceText[0];
      assert b != Some(LastChanceText);
      AppendGroup(c.events, b, n);
      forall x | x in prior
        ensures x in s.history && s.history[x].lastChance == Some(true)
      {
      }
      LastChanceKept(h0, c, s);
    }
  }

  lemma {:induction false} StepInv(h0: History, now: int, c: Cycle, v: Vehicle)
    requires Inv(h0, now, c)
    ensures Inv(h0, now, Step(c, v, now))
  {
    StepStreamInv(c, v, now);
    StepHistoryInv(h0, now, c, v);
    StepLastChanceInv(h0, now, c, v);
  }

  lemma {:induction false} RunInv(h0: History, now: int, c: Cycle, vs: seq<Vehicle>)
    requires Inv(h0, now, c)
    ensures Inv(h0, now, Run(c, vs, now))
    decreases |vs|
  {
    if |vs| > 0 {
      StepInv(h0, now, c, vs[0]);
      RunInv(h0, now, Step(c, vs[0], now), vs[1..]);
    }
  }

  /**
   * One cycle over the listings `vs` from the loaded history `h`, at clock reading `now`:
   * at most one "NEW SALE ITEMS" banner; every banner directly followed by an embed; no
   * record removed; every posted name stamped with `now`; every other name's record (or its
   * absence) unchanged; a set last-chance flag never cleared; each last-chance banner sets its
   * name's flag, goes out at most once per name, and never for a name whose flag was already set.
   */
  lemma {:induction false} CycleGuarantees(h: History, vs: seq<Vehicle>, now: int)
    ensures var c := RunCycle(h, vs, now);
            && NewBanners(c.events) <= 1
            && BannerThenDetail(c.events)
            && h.Keys <= c.history.Keys
            && (forall n :: n in DetailNames(c.events) ==> n in c.history && c.history[n].lastPosted == now)
            && (forall n :: n in h && n !in DetailNames(c.events) ==> c.history[n] == h[n])
            && (forall n :: n !in h && n !in DetailNames(c.events) ==> n !in c.history)
            && (forall n :: n in h && h[n].lastChance == Some(true) ==> c.history[n].lastChance == Some(true))
            && (forall n :: n in LastChanceNames(c.events) ==> n in c.history && c.history[n].lastChance == Some(true))
            && NoDup(LastChanceNames(c.events))
            && (forall n :: n in h && h[n].lastChance == Some(true) ==> n !in LastChanceNames(c.events))
  {
    RunInv(h, now, Cycle(h, [], false, false), vs);
  }

  /**
   * What one listing's step sends, and when: its embed alone once the new-items banner has
   * gone out, behind that banner if it has not, behind the last-chance banner in the
   * last-chance branch (which also sets its flag), and nothing if the rule suppresses it or
   * the step raises.
   */
  lemma {:induction false} StepMessages(c: Cycle, v: Vehicle, now: int)
    requires !c.crashed
    ensures var s := Step(c, v, now);
            && (s.events == c.events + Group(Some(NewItemsText), v.name) <==>
                  ShouldPost(v, c.history, now) == Post && !LastChanceDue(c, v) && !c.announced)
            && (s.events == c.events + Group(None, v.name) <==>
                  ShouldPost(v, c.history, now) == Post && !LastChanceDue(c, v) && c.announced)
            && (s.events == c.events + Group(Some(LastChanceText), v.name) <==>
                  ShouldPost(v, c.history, now) == Post && LastChanceDue(c, v)
                  && (v.name in c.history ==> c.history[v.name].lastChance == Some(false)))
            && (s.events == c.events + Group(Some(LastChanceText), v.name) ==> s.history[v.name].lastChance == Some(true))
            && (s.events == c.events <==>
                  ShouldPost(v, c.history, now) != Post
                  || (LastChanceDue(c, v) && v.name in c.history && c.history[v.name].lastChance.None?))
  {
    assert NewItemsText[0] != LastChanceText[0];
    GroupDistinct(c.events, None, Some(NewItemsText), v.name);
    GroupDistinct(c.events, None, Some(LastChanceText), v.name);
    GroupDistinct(c.events, Some(LastChanceText), None, v.name);
    GroupDistinct(c.events, Some(LastChanceText), Some(NewItemsText), v.name);
    GroupDistinct(c.events, Some(NewItemsText), None, v.name);
    GroupDistinct(c.events, Some(NewItemsText), Some(LastChanceText), v.name);
    if ShouldPost(v, c.history, now) == Post && v.name in c.history {
      var r := c.history[v.name];
      if r.lastChance.Some? {
        if r.lastChance.value { assert r.lastChance == Some(true); } else { assert r.lastChance == Some(false); }
      }
    }
  }

  /** Once a cycle has crashed, no later listing changes anything. */
  lemma {:induction false} CrashIsFinal(c: Cycle, vs: seq<Vehicle>, now: int)
    requires c.crashed
    ensures Run(c, vs, now) == c
    decreases |vs|
  {
    if |vs| > 0 {
      CrashIsFinal(Step(c, vs[0], now), vs[1..], now);
    }
  }

  /** Every embed sent names one of the listings. */
  lemma {:induction false} DetailsNameListings(c: Cycle, vs: seq<Vehicle>, now: int)
    requires BannerThenDetail(c.events)
    ensures forall n :: n in DetailNames(Run(c, vs, now).events) ==>
              n in DetailNames(c.events) || exists k :: 0 <= k < |vs| && vs[k].name == n
    decreases |vs|
  {
    if |vs| > 0 {
      var s := Step(c, vs[0], now);
      if !c.crashed {
        StepMessages(c, vs[0], now);
        if s.events != c.events {
          var b :| b in {None, Some(LastChanceText), Some(NewItemsText)} && s.events == c.events + Group(b, vs[0].name);
          AppendGroup(c.events, b, vs[0].name);
        }
      }
      StepInvTrace(c, vs[0], now);
      DetailsNameListings(s, vs[1..], now);
      forall n | n in DetailNames(Run(c, vs, now).events)
        ensures n in DetailNames(c.events) || exists k :: 0 <= k < |vs| && vs[k].name == n
      {
        if n !in DetailNames(s.events) {
          var k :| 0 <= k < |vs[1..]| && vs[1..][k].name == n;
          assert vs[k + 1].name == n;
        } else if n !in DetailNames(c.events) {
          assert vs[0].name == n;
        }
      }
    }
  }

  /** A step keeps the stream well formed and adds at most its listing's name to the embeds. */
  lemma {:induction false} StepInvTrace(c: Cycle, v: Vehicle, now: int)
    requires BannerThenDetail(c.events)
    ensures BannerThenDetail(Step(c, v, now).events)
    ensures forall n :: n in DetailNames(Step(c, v, now).events) ==> n in DetailNames(c.events) || n == v.name
  {
    if !c.crashed {
      StepMessages(c, v, now);
      var s := Step(c, v, now);
      if s.events != c.events {
        var b :| b in {None, Some(LastChanceText), Some(NewItemsText)} && s.events == c.events + Group(b, v.name);
        AppendGroup(c.events, b, v.name);
      }
    }
  }

  /** A listing the current history would not post at this clock reading (or would fail on without changing anything). */
  predicate Settled(w: Vehicle, h: History, now: int) {
    && w.name in h
    && now - h[w.name].lastPosted <= Day
    && (w.timeLeft.Some? ==> w.timeLeft.value > 1 || h[w.name].lastChance == Some(true))
  }

  lemma {:induction false} StepKeepsSettled(w: Vehicle, c: Cycle, v: Vehicle, now: int)
    requires Settled(w, c.history, now)
    ensures Settled(w, Step(c, v, now).history, now)
  {
  }

  lemma {:induction false} StepSettles(c: Cycle, v: Vehicle, now: int)
    requires !Step(c, v, now).crashed
    ensures Settled(v, Step(c, v, now).history, now)
  {
  }

  lemma {:induction false} RunSettles(c: Cycle, done: seq<Vehicle>, rest: seq<Vehicle>, now: int)
    requires forall w :: w in done ==> Settled(w, c.history, now)
    requires !Run(c, rest, now).crashed
    ensures forall w :: w in done + rest ==> Settled(w, Run(c, rest, now).history, now)
    decreases |rest|
  {
    if |rest| == 0 {
      assert done + rest == done;
    } else {
      var s := Step(c, rest[0], now);
      if s.crashed {
        CrashIsFinal(s, rest[1..], now);
      }
      forall w | w in done ensures Settled(w, s.history, now) {
        StepKeepsSettled(w, c, rest[0], now);
      }
      StepSettles(c, rest[0], now);
      RunSettles(s, done + [rest[0]], rest[1..], now);
      assert done + [rest[0]] + rest[1..] == done + rest;
    }
  }

  /** Listings that are all settled leave the messages and the history as they are. */
  lemma {:induction false} QuietRun(c: Cycle, vs: seq<Vehicle>, now: int)
    requires forall w :: w in vs ==> Settled(w, c.history, now)
    ensures Run(c, vs, now).events == c.events && Run(c, vs, now).history == c.history
    decreases |vs|
  {
    if |vs| > 0 {
      var s := Step(c, vs[0], now);
      assert s.events == c.events && s.history == c.history by {
        assert Settled(vs[0], c.history, now);
      }
      QuietRun(s, vs[1..], now);
    }
  }

  /** Running over two runs of listings is running over the first, then over the second. */
  lemma {:induction false} RunAppend(c: Cycle, a: seq<Vehicle>, b: seq<Vehicle>, now: int)
    ensures Run(c, a + b, now) == Run(Run(c, a, now), b, now)
    decreases |a|
  {
    if |a| == 0 {
      assert a + b == b;
    } else {
      assert (a + b)[0] == a[0] && (a + b)[1..] == a[1..] + b;
      RunAppend(Step(c, a[0], now), a[1..], b, now);
    }
  }

  /** A cycle that raises does so at one listing, after the earlier ones completed, and the exception's state is its result. */
  lemma {:induction false} FirstCrash(c: Cycle, vs: seq<Vehicle>, now: int) returns (i: nat)
    requires !c.crashed && Run(c, vs, now).crashed
    ensures i < |vs| && !Run(c, vs[..i], now).crashed
    ensures Step(Run(c, vs[..i], now), vs[i], now).crashed
    ensures Run(c, vs, now) == Step(Run(c, vs[..i], now), vs[i], now)
    decreases |vs|
  {
    var s := Step(c, vs[0], now);
    if s.crashed {
      i := 0;
      assert vs[..0] == [];
    } else {
      var j := FirstCrash(s, vs[1..], now);
      i := j + 1;
      var p := vs[..i];
      assert p[0] == vs[0] && p[1..] == vs[1..][..j];
      assert vs[1..][j] == vs[i];
    }
  }

  /** Whether a step raises, and that a raising step changes nothing, depends only on the history. */
  lemma {:induction false} CrashDependsOnHistory(c: Cycle, d: Cycle, v: Vehicle, now: int)
    requires !c.crashed && !d.crashed && c.history == d.history
    requires Step(c, v, now).crashed
    ensures Step(c, v, now).history == c.history
    ensures Step(d, v, now).crashed && Step(d, v, now).history == d.history && Step(d, v, now).events == d.events
  {
  }

  /**
   * Running a cycle again on the history it left, over the same listings at the same clock
   * reading, sends nothing and leaves the history unchanged, whether or not the first run
   * raised: a run that raised stops again at the same listing before sending anything.
   */
  lemma {:induction false} RerunIsSilent(h: History, vs: seq<Vehicle>, now: int)
    ensures var c1 := RunCycle(h, vs, now);
            var c2 := RunCycle(c1.history, vs, now);
            c2.events == [] && c2.history == c1.history
  {
    var c0 := Cycle(h, [], false, false);
    var c1 := RunCycle(h, vs, now);
    if !c1.crashed {
      RunSettles(c0, [], vs, now);
      assert [] + vs == vs;
      QuietRun(Cycle(c1.history, [], false, false), vs, now);
    } else {
      RerunAfterCrash(h, vs, now);
    }
  }

  /** The raised case of the rerun: the settled listings before the failing one stay quiet, and it raises again. */
  lemma {:induction false} RerunAfterCrash(h: History, vs: seq<Vehicle>, now: int)
    requires RunCycle(h, vs, now).crashed
    ensures var c1 := RunCycle(h, vs, now);
            var c2 := RunCycle(c1.history, vs, now);
            c2.events == [] && c2.history == c1.history
  {
    var c0 := Cycle(h, [], false, false);
    var i := FirstCrash(c0, vs, now);
    var p := vs[..i];
    var before := Run(c0, p, now);
    CrashDependsOnHistory(before, before, vs[i], now);
    var H := before.history;
    assert RunCycle(h, vs, now).history == H;
    var c' := Cycle(H, [], false, false);
    RunSettles(c0, [], p, now);
    assert [] + p == p;
    QuietRun(c', p, now);
    RunAppend(c', p, vs[i..], now);
    assert p + vs[i..] == vs;
    RaisesAgain(before, Run(c', p, now), vs[i..], now);
  }

  /** From a state with the same history as one whose next listing raises, the rest of the run raises there too. */
  lemma {:induction false} RaisesAgain(c: Cycle, d: Cycle, vs: seq<Vehicle>, now: int)
    requires |vs| > 0 && !c.crashed && c.history == d.history && Step(c, vs[0], now).crashed
    ensures Run(d, vs, now).events == d.events && Run(d, vs, now).history == d.history
  {
    if !d.crashed {
      CrashDependsOnHistory(c, d, vs[0], now);
    }
  }

  lemma {:induction false} OneListing(h: History, v: Vehicle, now: int)
    ensures RunCycle(h, [v], now) == Step(Cycle(h, [], false, false), v, now)
  {
    var c := Cycle(h, [], false, false);
    assert [v][1..] == [];
    assert Run(c, [v], now) == Run(Step(c, v, now), [], now);
  }

  /**
   * Three cycles over one listing: first sighting with two hours left gets the new-items
   * banner; an hour later, with one hour left, the last-chance banner; an hour after that,
   * nothing.
   */
  lemma {:induction false} ExampleScenario(t0: int, t1: int, t2: int)
    requires t1 - t0 <= Day && t2 - t1 <= Day
    ensures var x2 := Vehicle("Tractor X", map[], Some(2), None);
            var x1 := Vehicle("Tractor X", map[], Some(1), None);
            var c1 := RunCycle(map[], [x2], t0);
            var c2 := RunCycle(c1.history, [x1], t1);
            var c3 := RunCycle(c2.history, [x1], t2);
            && c1.events == [Banner(NewItemsText), Detail("Tractor X")]
            && c1.history == map["Tractor X" := Record(t0, Some(false))]
            && c2.events == [Banner(LastChanceText), Detail("Tractor X")]
            && c2.history == map["Tractor X" := Record(t1, Some(true))]
            && c3.events == [] && c3.history == c2.history
  {
    var x2 := Vehicle("Tractor X", map[], Some(2), None);
    var x1 := Vehicle("Tractor X", map[], Some(1), None);
    OneListing(map[], x2, t0);
    var c1 := RunCycle(map[], [x2], t0);
    OneListing(c1.history, x1, t1);
    var c2 := RunCycle(c1.history, [x1], t1);
    OneListing(c2.history, x1, t2);
  }

  /** A card that raises while the page is read ends the tick before anything is sent or recorded. */
  lemma {:induction false} TickOutcome(h: History, cards: seq<Card>, now: int)
    ensures ParseCards(cards).Failure? ==> Tick(h, cards, now).events == [] && Tick(h, cards, now).history == h
    ensures ParseCards(cards).Success? ==> Tick(h, cards, now) == RunCycle(h, ParseCards(cards).value, now)
  {
  }
}

=== FILE: paths.dfy ===
/**
 * Windows path handling as `os.path` (ntpath) does it for the configured roots:
 * joining a root with a relative part and taking the base name.
 */
module Paths {
  import opened Strings

  /** Both separators ntpath accepts. */
  predicate IsSep(c: char) {
    c == '\\' || c == '/'
  }

  /** The separator ntpath inserts when joining. */
  const Sep: char := '\\'

  /** `s` holds no path separator. */
  predicate NoSep(s: string) {
    forall i :: 0 <= i < |s| ==> !IsSep(s[i])
  }

  /** The three configured directories (base-game data, mods, converted images). */
  datatype Config = Config(dataRoot: string, modsRoot: string, outputDir: string)

  /** `os.path.join(root, rel)` for a relative `rel`. */
  function PathJoin(root: string, rel: string): (p: string)
    ensures StartsWith(p, root)
    ensures |rel| <= |p| && p[|p| - |rel|..] == rel
    ensures root != "" && !IsSep(root[|root| - 1]) ==> |p| == |root| + 1 + |rel| && IsSep(p[|root|])
    ensures |p| <= |root| + 1 + |rel|
  {
    if root == "" then rel
    else if IsSep(root[|root| - 1]) then root + rel
    else root + [Sep] + rel
  }

  /** `os.path.basename(p)`: the part after the last separator. */
  function Basename(p: string): (b: string)
    ensures NoSep(b)
    ensures |b| <= |p| && b == p[|p| - |b|..]
    ensures |b| < |p| ==> IsSep(p[|p| - |b| - 1])
    decreases |p|
  {
    if |p| == 0 || IsSep(p[|p| - 1]) then ""
    else Basename(p[..|p| - 1]) + [p[|p| - 1]]
  }

  /** The base name of `x + b` is `b` when `b` is a single component after a separator. */
  lemma {:induction false} BasenameAfterSep(x: string, b: string)
    requires x == "" || IsSep(x[|x| - 1])
    requires NoSep(b)
    ensures Basename(x + b) == b
    decreases |b|
  {
    if |b| > 0 {
      var b', last := b[..|b| - 1], b[|b| - 1];
      assert b == b' + [last];
      assert NoSep(b') by {
        forall i | 0 <= i < |b'| ensures !IsSep(b'[i]) {
          assert b'[i] == b[i];
        }
      }
      assert !IsSep(last);
      var p := (x + b') + [last];
      assert x + b == p;
      assert p[..|p| - 1] == x + b';
      BasenameAfterSep(x, b');
    } else {
      assert x + b == x;
    }
  }

  /** Joining a single component onto a root and taking the base name gives the component back. */
  lemma {:induction false} BasenameOfJoin(root: string, b: string)
    requires NoSep(b)
    ensures Basename(PathJoin(root, b)) == b
  {
    if root == "" {
      BasenameAfterSep("", b);
    } else if IsSep(root[|root| - 1]) {
      BasenameAfterSep(root, b);
    } else {
      assert root + [Sep] + b == (root + [Sep]) + b;
      BasenameAfterSep(root + [Sep], b);
    }
  }

  /** Joining pieces that have no separator with a glue that has none gives a string with none. */
  lemma {:induction false} JoinNoSep(parts: seq<string>, glue: string)
    requires forall i :: 0 <= i < |parts| ==> NoSep(parts[i])
    requires NoSep(glue)
    ensures NoSep(Join(parts, glue))
    decreases |parts|
  {
    if |parts| > 1 {
      JoinNoSep(parts[1..], glue);
      assert NoSep(parts[0]);
    }
  }

  /** Every piece of a join without separators is itself without separators. */
  lemma {:induction false} PartsNoSep(parts: seq<string>, glue: string)
    requires NoSep(Join(parts, glue))
    ensures forall i :: 0 <= i < |parts| ==> NoSep(parts[i])
    decreases |parts|
  {
    if |parts| > 1 {
      var j := Join(parts, glue);
      assert j == parts[0] + glue + Join(parts[1..], glue);
      assert forall k :: 0 <= k < |parts[0]| ==> j[k] == parts[0][k];
      var t := Join(parts[1..], glue);
      assert forall k :: 0 <= k < |t| ==> j[|parts[0]| + |glue| + k] == t[k];
      PartsNoSep(parts[1..], glue);
      forall i | 1 <= i < |parts| ensures NoSep(parts[i]) {
        assert parts[i] == parts[1..][i - 1];
      }
    }
  }

  /** Replacing inside a component with separator-free text keeps it a single component. */
  lemma {:induction false} ReplaceNoSep(s: string, pat: string, rep: string)
    requires |pat| > 0 && NoSep(s) && NoSep(rep)
    ensures NoSep(Replace(s, pat, rep))
  {
    PartsNoSep(Split(s, pat), pat);
    JoinNoSep(Split(s, pat), rep);
  }
}

=== FILE: resolver.dfy ===
/**
 * Locating a vehicle's definition record from its `xmlFilename` reference (a `$moddir$`
 * archive entry or a `data/` file) and extracting the normalised listing fields from it.
 */
module Resolver {
  import opened Wrappers
  import opened Strings
  import opened Paths
  import opened Xml
  import opened Images

  /**
   * What the scripts can observe of the machine: the paths that exist, the name list of
   * every file that opens as a zip archive, the XML parser applied to a plain file or to an
   * archive entry (`None` when parsing fails) and the image decoder.
   */
  datatype World = World(
    paths: set<string>,
    archives: map<string, set<string>>,
    parseFile: string -> Option<Element>,
    parseEntry: (string, string) -> Option<Element>,
    decodes: string -> bool)

  /** The dictionary `extract_vehicle_details_from_xml` returns. */
  datatype Details = Details(
    name: string, specs: string, brand: string, category: string, image: string, filePath: string)

  /** The exceptions that escape to the caller. */
  datatype Fault =
    | NoReference     // the sale item has no `xmlFilename`, so `.startswith` is called on None
    | NoInnerPath     // nothing after the archive name: `split('/')[1]` raises IndexError
    | MalformedXml    // a `data/` file that does not parse
    | NoStoreData     // the record has no `storeData`, so `store_data.findtext` is called on None

  /** The outcome of resolving a reference: details, Python's `None`, or an escaping exception. */
  datatype Resolved = Found(details: Details) | NotFound | Raised(fault: Fault)

  /** One spec child rendered as `"tag: text"`; a child without text renders its text as `None`. */
  function SpecEntry(c: Element): (r: string) {
    c.tag + ": " + c.text.GetOr("None")
  }

  /** The children of `<specs>` in document order, joined by single spaces. */
  function FlattenSpecs(cs: seq<Element>): (r: string)
    ensures r == "" <==> |cs| == 0
    ensures |cs| == 1 ==> r == SpecEntry(cs[0])
  {
    assert |cs| > 0 ==> |SpecEntry(cs[0])| >= 2;
    Join(seq(|cs|, i requires 0 <= i < |cs| => SpecEntry(cs[i])), " ")
  }

  /** No children flatten to "", one child to its entry, and a concatenation to the two halves around one space. */
  lemma {:induction false} FlattenSpecsShape(a: seq<Element>, b: seq<Element>)
    ensures FlattenSpecs([]) == ""
    ensures |a| == 1 ==> FlattenSpecs(a) == a[0].tag + ": " + a[0].text.GetOr("None")
    ensures |a| > 0 && |b| > 0 ==> FlattenSpecs(a + b) == FlattenSpecs(a) + " " + FlattenSpecs(b)
    ensures FlattenSpecs(a) == "" <==> |a| == 0
  {
    var ea := seq(|a|, i requires 0 <= i < |a| => SpecEntry(a[i]));
    var eb := seq(|b|, i requires 0 <= i < |b| => SpecEntry(b[i]));
    var ab := seq(|a + b|, i requires 0 <= i < |a + b| => SpecEntry((a + b)[i]));
    assert ab == ea + eb;
    if |a| > 0 && |b| > 0 {
      JoinAppend(ea, eb, " ");
    }
    if |a| > 0 {
      assert |SpecEntry(a[0])| >= 2;
      if |a| > 1 {
        assert Join(ea, " ") == ea[0] + " " + Join(ea[1..], " ");
      }
    }
  }

  /**
   * `extract_vehicle_details_from_xml`: name, brand and category from `storeData` (each
   * "Unknown" when its element is missing), specs flattened from `<specs>` ("" without it),
   * and the image reference rewritten and normalised when it is not empty. A record without
   * `storeData` fails at the image lookup, so the "Unknown" defaults the source writes for
   * that case never reach a caller.
   */
  function Extract(root: Element, cfg: Config, w: World, filePath: string): (r: Result<Details, Fault>)
    ensures r.Failure? <==> Find(root, "storeData").None?
    ensures r.Failure? ==> r.error == NoStoreData
    ensures r.Success? ==> r.value.filePath == filePath
  {
    match Find(root, "storeData")
    case None => Failure(NoStoreData)
    case Some(sd) =>
      var name := FindText(sd, "name", "Unknown");
      var specs := match Find(sd, "specs") case None => "" case Some(sp) => FlattenSpecs(sp.children);
      var brand := FindText(sd, "brand", "Unknown");
      var category := FindText(sd, "category", "Unknown");
      var raw := FindText(sd, "image", "");
      var image := if raw == "" then "" else Normalize(RewriteImage(raw, cfg), cfg, w.paths, w.decodes);
      Success(Details(name, specs, brand, category, image, filePath))
  }

  /**
   * Extraction fails exactly when `storeData` is missing. Otherwise each field is its element's
   * text or its default, the specs are the flattened `<specs>` children, and a non-empty image
   * reference is rewritten and normalised.
   */
  lemma {:induction false} ExtractFields(root: Element, cfg: Config, w: World, filePath: string)
    ensures Extract(root, cfg, w, filePath).Failure? <==> Find(root, "storeData").None?
    ensures Extract(root, cfg, w, filePath).Failure? ==> Extract(root, cfg, w, filePath).error == NoStoreData
    ensures Find(root, "storeData").Some? ==>
              var sd := Find(root, "storeData").value;
              var d := Extract(root, cfg, w, filePath).value;
              && d.filePath == filePath
              && (Find(sd, "name").None? ==> d.name == "Unknown")
              && (Find(sd, "brand").None? ==> d.brand == "Unknown")
              && (Find(sd, "category").None? ==> d.category == "Unknown")
              && (Find(sd, "specs").None? ==> d.specs == "")
              && (Find(sd, "image").None? ==> d.image == "")
              && (Find(sd, "name").Some? ==> d.name == Find(sd, "name").value.text.GetOr(""))
              && (Find(sd, "brand").Some? ==> d.brand == Find(sd, "brand").value.text.GetOr(""))
              && (Find(sd, "category").Some? ==> d.category == Find(sd, "category").value.text.GetOr(""))
              && (Find(sd, "specs").Some? ==> d.specs == FlattenSpecs(Find(sd, "specs").value.children))
              && (Find(sd, "image").Some? && Find(sd, "image").value.text.GetOr("") != "" ==>
                    d.image == Normalize(RewriteImage(Find(sd, "image").value.text.value, cfg), cfg, w.paths, w.decodes))
              && (Find(sd, "image").Some? && Find(sd, "image").value.text.GetOr("") == "" ==> d.image == "")
  {
  }

  /**
   * The archive path and inner entry a `$moddir$` reference names: every `$moddir$` removed,
   * the rest stripped, then the first `/`-segment names `<segment>.zip` under the mods root
   * and the second segment is the entry.
   */
  function ModTarget(reference: string, cfg: Config): (r: Result<(string, string), Fault>)
    ensures r.Failure? <==> !Contains(Strip(Replace(reference, "$moddir$", "")), "/")
    ensures r.Failure? ==> r.error == NoInnerPath
    ensures r.Success? ==> StartsWith(r.value.0, cfg.modsRoot) && !Contains(r.value.1, "/")
  {
    var cleaned := Strip(Replace(reference, "$moddir$", ""));
    var parts := Split(cleaned, "/");
    SplitHasSecondPiece(cleaned, "/");
    SplitPiecesFree(cleaned, "/");
    if |parts| < 2 then Failure(NoInnerPath)
    else Success((PathJoin(cfg.modsRoot, parts[0] + ".zip"), parts[1]))
  }

  /** A plain text segment: no `/`, no `$` and no white space. */
  predicate Plain(s: string) {
    forall i :: 0 <= i < |s| ==> s[i] != '/' && s[i] != '$' && !IsSpace(s[i])
  }

  lemma {:induction false} PlainJoin(a: string, b: string)
    requires Plain(a) && Plain(b)
    ensures |a + "/" + b| > 0 ==> !IsSpace((a + "/" + b)[0]) && !IsSpace((a + "/" + b)[|a + "/" + b| - 1])
    ensures '$' !in a + "/" + b
  {
    var s := a + "/" + b;
    forall i | 0 <= i < |s| ensures s[i] != '$' && (i != |a| ==> !IsSpace(s[i])) {
      if i < |a| { assert s[i] == a[i]; } else if i > |a| { assert s[i] == b[i - |a| - 1]; }
    }
  }

  /** After the prefix, a `$`-free text without outer white space survives the cleaning unchanged. */
  lemma {:induction false} CleanModdir(rest: string)
    requires '$' !in rest
    requires |rest| > 0 ==> !IsSpace(rest[0]) && !IsSpace(rest[|rest| - 1])
    ensures Strip(Replace("$moddir$" + rest, "$moddir$", "")) == rest
  {
    ReplaceLeading("$moddir$", rest, "");
    ContainsNeedsHead(rest, "$moddir$");
    ReplaceAbsent(rest, "$moddir$", "");
    assert "" + rest == rest;
    StripNoSpace(rest);
  }

  /** `$moddir$A/F` names archive `<mods root>/A.zip` and entry `F`. */
  lemma {:induction false} ModTargetTwoSegments(a: string, f: string, cfg: Config)
    requires Plain(a) && Plain(f)
    ensures ModTarget("$moddir$" + a + "/" + f, cfg) == Success((PathJoin(cfg.modsRoot, a + ".zip"), f))
  {
    var rest := a + "/" + f;
    assert "$moddir$" + a + "/" + f == "$moddir$" + rest;
    PlainJoin(a, f);
    CleanModdir(rest);
    assert '/' !in a && '/' !in f;
    SplitAtFirstChar(a, '/', f);
    SplitNoChar(f, '/');
    var cleaned := Strip(Replace("$moddir$" + rest, "$moddir$", ""));
    assert cleaned == rest;
    var parts := Split(cleaned, "/");
    assert parts[0] == a && parts[1] == f;
    assert ModTarget("$moddir$" + rest, cfg) == Success((PathJoin(cfg.modsRoot, parts[0] + ".zip"), parts[1]));
  }

  /** `$moddir$A/B/C` names entry `B`: only the second segment is kept, so nested entries are never found. */
  lemma {:induction false} ModTargetThreeSegments(a: string, b: string, c: string, cfg: Config)
    requires Plain(a) && Plain(b) && Plain(c)
    ensures ModTarget("$moddir$" + a + "/" + b + "/" + c, cfg) == Success((PathJoin(cfg.modsRoot, a + ".zip"), b))
  {
    var bc := b + "/" + c;
    var rest := a + "/" + bc;
    assert "$moddir$" + a + "/" + b + "/" + c == "$moddir$" + rest;
    assert '$' !in rest && (|rest| > 0 ==> !IsSpace(rest[0]) && !IsSpace(rest[|rest| - 1])) by {
      forall i | 0 <= i < |rest| ensures rest[i] != '$' && (rest[i] != '/' ==> !IsSpace(rest[i])) {
        if i < |a| { assert rest[i] == a[i]; }
        else if i == |a| { }
        else if i < |a| + 1 + |b| { assert rest[i] == b[i - |a| - 1]; }
        else if i == |a| + 1 + |b| { }
        else { assert rest[i] == c[i - |a| - |b| - 2]; }
      }
    }
    CleanModdir(rest);
    assert '/' !in a && '/' !in b;
    SplitAtFirstChar(a, '/', bc);
    SplitAtFirstChar(b, '/', c);
    var parts := Split(Strip(Replace("$moddir$" + rest, "$moddir$", "")), "/");
    assert parts[0] == a && parts[1] == b;
    assert ModTarget("$moddir$" + rest, cfg) == Success((PathJoin(cfg.modsRoot, parts[0] + ".zip"), parts[1]));
  }

  /** A `$moddir$` reference with no `/` after the archive name raises IndexError. */
  lemma {:induction false} ModTargetNoSlash(a: string, cfg: Config)
    requires Plain(a)
    ensures ModTarget("$moddir$" + a, cfg) == Failure(NoInnerPath)
  {
    assert '$' !in a && (|a| > 0 ==> !IsSpace(a[0]) && !IsSpace(a[|a| - 1]));
    CleanModdir(a);
    SplitNoChar(a, '/');
  }

  /** `parse_vehicle_details` from the `$moddir$` reference on: the zip-file branch. */
  function ResolveArchive(reference: string, cfg: Config, w: World): (r: Resolved)
    ensures r.Raised? <==> ModTarget(reference, cfg).Failure?
    ensures r.Raised? ==> r.fault == NoInnerPath
    ensures r.Found? ==> r.details.filePath == ModTarget(reference, cfg).value.0
  {
    match ModTarget(reference, cfg)
    case Failure(f) => Raised(f)
    case Success((zip, entry)) => ResolveEntry(zip, entry, cfg, w)
  }

  /** Reading entry `entry` of the mod archive `zip`, inside the handler that turns every exception into `None`. */
  function ResolveEntry(zip: string, entry: string, cfg: Config, w: World): (r: Resolved)
    ensures !r.Raised?
    ensures r.Found? ==> zip in w.paths && zip in w.archives && entry in w.archives[zip] && r.details.filePath == zip
  {
    if zip !in w.paths || zip !in w.archives || entry !in w.archives[zip] then NotFound
    else
      match w.parseEntry(zip, entry)
      case None => NotFound
      case Some(root) =>
        match Extract(root, cfg, w, zip)
        case Failure(_) => NotFound
        case Success(d) => Found(d)
  }

  /** `parse_vehicle_details` for a `data/` reference: a plain file under the data root, with no handler. */
  function ResolveData(reference: string, cfg: Config, w: World): (r: Resolved)
    requires StartsWith(reference, "data/")
    ensures r.Raised? ==> r.fault == MalformedXml || r.fault == NoStoreData
    ensures r.Found? ==> var file := PathJoin(cfg.dataRoot, reference[5..]);
                         file in w.paths && r.details.filePath == file
  {
    var file := PathJoin(cfg.dataRoot, reference[5..]);
    if file !in w.paths then NotFound
    else
      match w.parseFile(file)
      case None => Raised(MalformedXml)
      case Some(root) =>
        match Extract(root, cfg, w, file)
        case Failure(f) => Raised(f)
        case Success(d) => Found(d)
  }

  /** `parse_vehicle_details`: only the `$moddir$` and `data/` prefixes are recognised. */
  function Resolve(reference: Option<string>, cfg: Config, w: World): (r: Resolved)
    ensures r == Raised(NoReference) <==> reference.None?
    ensures r.Found? ==> StartsWith(reference.value, "$moddir$") || StartsWith(reference.value, "data/")
  {
    match reference
    case None => Raised(NoReference)
    case Some(r) =>
      if StartsWith(r, "$moddir$") then ResolveArchive(r, cfg, w)
      else if StartsWith(r, "data/") then ResolveData(r, cfg, w)
      else NotFound
  }

  /** The branch-by-branch outcome of the zip-file branch for the archive `zip` and entry `f`. */
  lemma {:induction false} ArchiveOutcome(zip: string, f: string, cfg: Config, w: World)
    ensures var res := ResolveEntry(zip, f, cfg, w);
            && !res.Raised?
            && (res.Found? <==>
                  zip in w.paths && zip in w.archives && f in w.archives[zip]
                  && w.parseEntry(zip, f).Some? && Find(w.parseEntry(zip, f).value, "storeData").Some?)
            && (res.Found? ==> res.details == Extract(w.parseEntry(zip, f).value, cfg, w, zip).value)
  {
    if zip in w.paths && zip in w.archives && f in w.archives[zip] && w.parseEntry(zip, f).Some? {
      ExtractFields(w.parseEntry(zip, f).value, cfg, w, zip);
    }
  }

  /**
   * An archive reference resolves to details exactly when the archive exists and opens, names
   * the entry, the entry parses and has `storeData`; the details then carry the archive's path.
   */
  lemma {:induction false} ResolveArchiveCases(a: string, f: string, cfg: Config, w: World)
    requires Plain(a) && Plain(f)
    ensures var zip := PathJoin(cfg.modsRoot, a + ".zip");
            var res := Resolve(Some("$moddir$" + a + "/" + f), cfg, w);
            && !res.Raised?
            && (res.Found? <==>
                  zip in w.paths && zip in w.archives && f in w.archives[zip]
                  && w.parseEntry(zip, f).Some? && Find(w.parseEntry(zip, f).value, "storeData").Some?)
            && (res.Found? ==> res.details == Extract(w.parseEntry(zip, f).value, cfg, w, zip).value)
            && (res.Found? ==> res.details.filePath == zip)
  {
    var r := "$moddir$" + a + "/" + f;
    var zip := PathJoin(cfg.modsRoot, a + ".zip");
    assert r[..8] == "$moddir$";
    assert Resolve(Some(r), cfg, w) == ResolveArchive(r, cfg, w);
    ModTargetTwoSegments(a, f, cfg);
    assert ResolveArchive(r, cfg, w) == ResolveEntry(zip, f, cfg, w);
    ArchiveOutcome(zip, f, cfg, w);
    if w.parseEntry(zip, f).Some? {
      ExtractFields(w.parseEntry(zip, f).value, cfg, w, zip);
    }
  }

  /**
   * A `data/` reference resolves to `<data root>/P`: `None` when that path does not exist, and
   * otherwise an escaping exception unless the file parses and has `storeData`.
   */
  lemma {:induction false} ResolveDataCases(p: string, cfg: Config, w: World)
    ensures var file := PathJoin(cfg.dataRoot, p);
            var res := Resolve(Some("data/" + p), cfg, w);
            && (file !in w.paths ==> res == NotFound)
            && (file in w.paths && w.parseFile(file).None? ==> res == Raised(MalformedXml))
            && (file in w.paths && w.parseFile(file).Some? ==>
                  res == match Extract(w.parseFile(file).value, cfg, w, file)
                         case Failure(e) => Raised(e)
                         case Success(d) => Found(d))
            && (res.Found? ==> res.details.filePath == file)
  {
    var r := "data/" + p;
    assert r[..5] == "data/" && r[5..] == p;
    assert r[0] != "$moddir$"[0];
    assert Resolve(Some(r), cfg, w) == ResolveData(r, cfg, w);
    var file := PathJoin(cfg.dataRoot, p);
    if file in w.paths && w.parseFile(file).Some? {
      ExtractFields(w.parseFile(file).value, cfg, w, file);
    }
  }

  /** Any reference without the `$moddir$` or `data/` prefix (including `Mods/` and `$data/`) yields `None`. */
  lemma {:induction false} ResolveOtherPrefix(r: string, cfg: Config, w: World)
    requires !StartsWith(r, "$moddir$") && !StartsWith(r, "data/")
    ensures Resolve(Some(r), cfg, w) == NotFound
  {
  }

  /** `Mods/` and `$data/` definition references are not handled by the resolver. */
  lemma {:induction false} ResolveIgnoresModsAndDollarData(p: string, cfg: Config, w: World)
    ensures Resolve(Some("Mods/" + p), cfg, w) == NotFound
    ensures Resolve(Some("$data/" + p), cfg, w) == NotFound
  {
    var m, d := "Mods/" + p, "$data/" + p;
    assert m[0] == 'M' && d[1] == 'd';
    assert !StartsWith(m, "$moddir$") && !StartsWith(m, "data/");
    assert !StartsWith(d, "data/") && !StartsWith(d, "$moddir$");
  }

  /**
   * The same record read from an archive entry and from a plain `data/` file yields the same
   * listing fields; only the recorded file path differs.
   */
  lemma {:induction false} ArchiveAndPlainAgree(a: string, f: string, p: string, cfg: Config, w: World, root: Element)
    requires Plain(a) && Plain(f)
    requires var zip := PathJoin(cfg.modsRoot, a + ".zip");
             zip in w.paths && zip in w.archives && f in w.archives[zip] && w.parseEntry(zip, f) == Some(root)
    requires PathJoin(cfg.dataRoot, p) in w.paths && w.parseFile(PathJoin(cfg.dataRoot, p)) == Some(root)
    requires Find(root, "storeData").Some?
    ensures var fromZip := Resolve(Some("$moddir$" + a + "/" + f), cfg, w);
            var fromData := Resolve(Some("data/" + p), cfg, w);
            && fromZip.Found? && fromData.Found?
            && fromZip.details.(filePath := "") == fromData.details.(filePath := "")
  {
    ResolveArchiveCases(a, f, cfg, w);
    ResolveDataCases(p, cfg, w);
    ExtractFields(root, cfg, w, PathJoin(cfg.modsRoot, a + ".zip"));
    ExtractFields(root, cfg, w, PathJoin(cfg.dataRoot, p));
  }
}

=== FILE: strings.dfy ===
/**
 * The handful of Python `str` operations the scripts rely on: `sub in s`,
 * `s.split(sep)`, `sep.join(parts)`, `s.replace(old, new)`, `s.strip()`,
 * `s.startswith(p)` and `int(s)`, each with the behaviour CPython gives it.
 */
module Strings {
  import opened Wrappers

  /** `p` occurs in `s` starting at index `j`. */
  predicate Occurs(s: string, p: string, j: int) {
    0 <= j && j + |p| <= |s| && s[j..j + |p|] == p
  }

  /** `s.startswith(p)`. */
  predicate StartsWith(s: string, p: string) {
    |p| <= |s| && s[..|p|] == p
  }

  /** The first occurrence of `p` in `s` at or after index `k` (`s.find(p, k)`). */
  function IndexFrom(s: string, p: string, k: nat): (r: Option<nat>)
    requires |p| > 0 && k <= |s|
    ensures r.Some? ==> k <= r.value && Occurs(s, p, r.value)
    ensures r.Some? ==> forall j :: k <= j < r.value ==> !Occurs(s, p, j)
    ensures r.None? ==> forall j :: k <= j ==> !Occurs(s, p, j)
    decreases |s| - k
  {
    if k + |p| > |s| then None
    else if s[k..k + |p|] == p then Some(k)
    else IndexFrom(s, p, k + 1)
  }

  /** The first occurrence of `p` in `s`. */
  function IndexOf(s: string, p: string): (r: Option<nat>)
    requires |p| > 0
    ensures r.Some? ==> Occurs(s, p, r.value) && forall j :: 0 <= j < r.value ==> !Occurs(s, p, j)
    ensures r.None? ==> forall j :: !Occurs(s, p, j)
  {
    IndexFrom(s, p, 0)
  }

  /** Python's `p in s` for a non-empty `p`. */
  predicate Contains(s: string, p: string)
    requires |p| > 0
  {
    IndexOf(s, p).Some?
  }

  lemma {:induction false} ContainsIffOccurs(s: string, p: string, j: int)
    requires |p| > 0 && Occurs(s, p, j)
    ensures Contains(s, p)
  {
  }

  /** A one-character pattern occurs exactly where that character stands. */
  lemma {:induction false} OccursChar(s: string, c: char, j: int)
    ensures Occurs(s, [c], j) <==> 0 <= j < |s| && s[j] == c
  {
    if 0 <= j < |s| {
      assert s[j..j + 1] == [s[j]];
    }
  }

  /** `s` cannot contain `p` unless it contains the first character of `p`. */
  lemma {:induction false} ContainsNeedsHead(s: string, p: string)
    requires |p| > 0 && p[0] !in s
    ensures !Contains(s, p)
  {
  }

  /** `sep.join(parts)`. */
  function Join(parts: seq<string>, sep: string): (r: string)
    decreases |parts|
  {
    if |parts| == 0 then ""
    else if |parts| == 1 then parts[0]
    else parts[0] + sep + Join(parts[1..], sep)
  }

  /** Joining two non-empty lists puts exactly one separator between their joins. */
  lemma {:induction false} JoinAppend(a: seq<string>, b: seq<string>, sep: string)
    requires |a| > 0 && |b| > 0
    ensures Join(a + b, sep) == Join(a, sep) + sep + Join(b, sep)
    decreases |a|
  {
    if |a| == 1 {
      assert (a + b)[1..] == b;
    } else {
      assert (a + b)[1..] == a[1..] + b;
      JoinAppend(a[1..], b, sep);
    }
  }

  /** `s.split(sep)` for a non-empty `sep`: the pieces between occurrences, scanned left to right. */
  function Split(s: string, sep: string): (parts: seq<string>)
    requires |sep| > 0
    ensures |parts| >= 1
    ensures Join(parts, sep) == s
    decreases |s|
  {
    match IndexOf(s, sep)
    case None => [s]
    case Some(i) =>
      var rest := Split(s[i + |sep|..], sep);
      assert s == s[..i] + sep + s[i + |sep|..];
      [s[..i]] + rest
  }

  /** No piece of a split contains the separator. */
  lemma {:induction false} SplitPiecesFree(s: string, sep: string)
    requires |sep| > 0
    ensures forall i :: 0 <= i < |Split(s, sep)| ==> !Contains(Split(s, sep)[i], sep)
    decreases |s|
  {
    match IndexOf(s, sep)
    case None =>
    case Some(i) =>
      PrefixHasNoOccurrence(s, sep, i);
      SplitPiecesFree(s[i + |sep|..], sep);
      var parts := Split(s, sep);
      assert parts == [s[..i]] + Split(s[i + |sep|..], sep);
      forall k | 1 <= k < |parts| ensures !Contains(parts[k], sep) {
        assert parts[k] == Split(s[i + |sep|..], sep)[k - 1];
      }
  }

  /** Before the first occurrence of `p` there is no occurrence of `p` inside the prefix. */
  lemma {:induction false} PrefixHasNoOccurrence(s: string, p: string, i: nat)
    requires |p| > 0 && i <= |s|
    requires forall j :: 0 <= j < i ==> !Occurs(s, p, j)
    ensures !Contains(s[..i], p)
  {
    if Contains(s[..i], p) {
      var j := IndexOf(s[..i], p).value;
      assert s[..i][j..j + |p|] == s[j..j + |p|];
      assert Occurs(s, p, j);
      assert false;
    }
  }

  /** The index of the first occurrence is pinned down by where `p` first occurs. */
  lemma {:induction false} IndexOfIs(s: string, p: string, i: nat)
    requires |p| > 0 && Occurs(s, p, i)
    requires forall j :: 0 <= j < i ==> !Occurs(s, p, j)
    ensures IndexOf(s, p) == Some(i)
  {
  }

  /** Splitting `a + [c] + b` on the character `c`, when `a` holds no `c`. */
  lemma {:induction false} SplitAtFirstChar(a: string, c: char, b: string)
    requires c !in a
    ensures Split(a + [c] + b, [c]) == [a] + Split(b, [c])
  {
    var s := a + [c] + b;
    forall j | 0 <= j < |a| ensures !Occurs(s, [c], j) {
      OccursChar(s, c, j);
    }
    OccursChar(s, c, |a|);
    IndexOfIs(s, [c], |a|);
    assert s[..|a|] == a;
    assert s[|a| + 1..] == b;
  }

  /** A string without `c` is a single piece when split on `c`. */
  lemma {:induction false} SplitNoChar(s: string, c: char)
    requires c !in s
    ensures Split(s, [c]) == [s]
  {
    if IndexOf(s, [c]).Some? {
      OccursChar(s, c, IndexOf(s, [c]).value);
    }
  }

  /** `s.replace(pat, rep)` for a non-empty `pat`: every occurrence, left to right, without rescanning. */
  function Replace(s: string, pat: string, rep: string): (r: string)
    requires |pat| > 0
  {
    Join(Split(s, pat), rep)
  }

  /** Replacing something that never occurs changes nothing. */
  lemma {:induction false} ReplaceAbsent(s: string, pat: string, rep: string)
    requires |pat| > 0 && !Contains(s, pat)
    ensures Replace(s, pat, rep) == s
  {
  }

  /** A leading occurrence is replaced, and the rest of the string is handled on its own. */
  lemma {:induction false} ReplaceLeading(pat: string, x: string, rep: string)
    requires |pat| > 0
    ensures Replace(pat + x, pat, rep) == rep + Replace(x, pat, rep)
  {
    var s := pat + x;
    assert s[0..0 + |pat|] == pat;
    IndexOfIs(s, pat, 0);
    assert s[0 + |pat|..] == x;
    var rest := Split(x, pat);
    var parts := Split(s, pat);
    assert parts == [s[..0]] + rest;
    assert |parts| >= 2 && parts[0] == "" && parts[1..] == rest;
    assert Join(parts, rep) == parts[0] + rep + Join(parts[1..], rep);
  }

  /** `s.split(sep)` has a second piece exactly when `sep in s`. */
  lemma {:induction false} SplitHasSecondPiece(s: string, sep: string)
    requires |sep| > 0
    ensures |Split(s, sep)| >= 2 <==> Contains(s, sep)
  {
    match IndexOf(s, sep)
    case None =>
    case Some(i) =>
      assert Split(s, sep) == [s[..i]] + Split(s[i + |sep|..], sep);
  }

  /** Python's `str.isspace()` for one character: the characters `strip()` removes. */
  predicate IsSpace(c: char) {
    || c == ' ' || ('\t' <= c <= '\r') || ('\U{1c}' <= c <= '\U{1f}')
    || c == '\U{85}' || c == '\U{a0}' || c == '\U{1680}'
    || ('\U{2000}' <= c <= '\U{200a}') || c == '\U{2028}' || c == '\U{2029}'
    || c == '\U{202f}' || c == '\U{205f}' || c == '\U{3000}'
  }

  predicate AllSpace(s: string) {
    forall i :: 0 <= i < |s| ==> IsSpace(s[i])
  }

  /** `s.lstrip()`: the suffix left after dropping leading white space. */
  function StripLeft(s: string): (r: string)
    ensures |r| <= |s| && r == s[|s| - |r|..]
    ensures AllSpace(s[..|s| - |r|])
    ensures |r| > 0 ==> !IsSpace(r[0])
    decreases |s|
  {
    if |s| > 0 && IsSpace(s[0]) then StripLeft(s[1..]) else s
  }

  /** `s.rstrip()`: the prefix left after dropping trailing white space. */
  function StripRight(s: string): (r: string)
    ensures |r| <= |s| && r == s[..|r|]
    ensures AllSpace(s[|r|..])
    ensures |r| > 0 ==> !IsSpace(r[|r| - 1])
    decreases |s|
  {
    if |s| > 0 && IsSpace(s[|s| - 1]) then StripRight(s[..|s| - 1]) else s
  }

  /** `s.strip()`: the infix of `s` between its leading and trailing white space. */
  function Strip(s: string): (r: string)
    ensures |r| > 0 ==> !IsSpace(r[0]) && !IsSpace(r[|r| - 1])
  {
    var l := StripLeft(s);
    var r := StripRight(l);
    assert |r| > 0 ==> r[0] == l[0];
    r
  }

  /** A string that neither starts nor ends with white space is its own strip. */
  lemma {:induction false} StripNoSpace(s: string)
    requires |s| > 0 ==> !IsSpace(s[0]) && !IsSpace(s[|s| - 1])
    ensures Strip(s) == s
  {
  }

  predicate IsDigit(c: char) {
    '0' <= c <= '9'
  }

  function DigitValue(c: char): (r: nat)
    requires IsDigit(c)
  {
    c as int - '0' as int
  }

  function DigitChar(d: nat): (c: char)
    requires d < 10
    ensures IsDigit(c) && DigitValue(c) == d
  {
    ('0' as int + d) as char
  }

  /** The value of a run of decimal digits, read most significant first. */
  function DigitsValue(s: string): (r: nat)
    requires forall i :: 0 <= i < |s| ==> IsDigit(s[i])
    decreases |s|
  {
    if |s| == 0 then 0 else 10 * DigitsValue(s[..|s| - 1]) + DigitValue(s[|s| - 1])
  }

  /** `int(s)` on already stripped text: an optional sign and at least one ASCII digit, else `ValueError`. */
  function ParseInt(s: string): (r: Option<int>) {
    var sign := if |s| > 0 && (s[0] == '-' || s[0] == '+') then 1 else 0;
    var digits := s[sign..];
    if |digits| == 0 || exists i :: 0 <= i < |digits| && !IsDigit(digits[i]) then None
    else if sign == 1 && s[0] == '-' then Some(0 - DigitsValue(digits) as int)
    else Some(DigitsValue(digits))
  }

  /** `str(n)` for a natural number. */
  function ShowNat(n: nat): (s: string)
    ensures |s| > 0 && forall i :: 0 <= i < |s| ==> IsDigit(s[i])
    decreases n
  {
    if n < 10 then [DigitChar(n)] else ShowNat(n / 10) + [DigitChar(n % 10)]
  }

  /** `str(n)` for an integer. */
  function ShowInt(n: int): (r: string) {
    if n < 0 then "-" + ShowNat(-n) else ShowNat(n)
  }

  lemma {:induction false} DigitsOfShowNat(n: nat)
    ensures DigitsValue(ShowNat(n)) == n
    decreases n
  {
    if n >= 10 {
      var s := ShowNat(n);
      assert s[..|s| - 1] == ShowNat(n / 10);
      DigitsOfShowNat(n / 10);
    }
  }

  /** `int(str(n)) == n`: the integer text the page writes reads back as the same number. */
  lemma {:induction false} ParseShowInt(n: int)
    ensures ParseInt(ShowInt(n)) == Some(n)
  {
    var s := ShowInt(n);
    if n < 0 {
      assert s[1..] == ShowNat(-n);
      DigitsOfShowNat(-n);
    } else {
      assert s[0..] == s;
      DigitsOfShowNat(n);
    }
  }
}

=== FILE: wrappers.dfy ===
/** Option and result types shared by every module. */
module Wrappers {

  /** Python's `None` or a present value. */
  datatype Option<+T> = None | Some(value: T) {

    /** The value, or `default` when there is none (`dict.get(key, default)`). */
    function GetOr(default: T): T {
      match this
      case Some(v) => v
      case None => default
    }
  }

  /** A computed value, or the exception that the source would raise instead. */
  datatype Result<+T, +E> = Success(value: T) | Failure(error: E)
}

=== FILE: xml.dfy ===
/** The slice of ElementTree the extractor uses: an element tree and first-child lookups. */
module Xml {
  import opened Wrappers

  /** An XML element: its tag, its leading text (`None` when the element has none) and its child elements. */
  datatype Element = Element(tag: string, text: Option<string>, children: seq<Element>)

  /** Index of the first element of `cs` whose tag is `tag`. */
  function FirstTagged(cs: seq<Element>, tag: string, k: nat): (r: Option<nat>)
    requires k <= |cs|
    ensures r.Some? ==> k <= r.value < |cs| && cs[r.value].tag == tag
    ensures r.Some? ==> forall j :: k <= j < r.value ==> cs[j].tag != tag
    ensures r.None? ==> forall j :: k <= j < |cs| ==> cs[j].tag != tag
    decreases |cs| - k
  {
    if k == |cs| then None
    else if cs[k].tag == tag then Some(k)
    else FirstTagged(cs, tag, k + 1)
  }

  /** `e.find(tag)`: the first direct child named `tag`. */
  function Find(e: Element, tag: string): (r: Option<Element>)
    ensures r.Some? ==> r.value.tag == tag && r.value in e.children
    ensures r.Some? ==> exists i :: 0 <= i < |e.children| && e.children[i] == r.value
                                  && forall j :: 0 <= j < i ==> e.children[j].tag != tag
    ensures r.None? ==> forall j :: 0 <= j < |e.children| ==> e.children[j].tag != tag
  {
    match FirstTagged(e.children, tag, 0)
    case None => None
    case Some(i) => Some(e.children[i])
  }

  /**
   * `e.findtext(tag, default)`: `default` when there is no such child, otherwise the
   * child's text, which ElementTree reports as "" when the child has none.
   */
  function FindText(e: Element, tag: string, default: string): (r: string) {
    match Find(e, tag)
    case None => default
    case Some(c) => c.text.GetOr("")
  }
}
